=== FILE: README.md ===
# Guardian: a verified model of the YARN watchdog's decision logic

Guardian watches a Hadoop YARN cluster for long-running applications. Every
cycle it does the following:

- It re-reads its configuration (the desired state): `node_name`, the candidate
  ResourceManager hosts `yarn.api_hosts`, and one entry per application with
  `app_name`, `app_num`, `start_cmd`, `active`, `check_type` and `check_options`.
- It defaults `node_name` and drops every entry whose `active` is the literal
  `false`.
- It locates the active ResourceManager and fetches the accepted and running
  applications. It makes up to three attempts and sends one alert if all of
  them fail.
- It groups the running instances by name and compares each configured
  application's expected instance count (default 1) with the actual count:
  - too few: the name is queued for restart;
  - too many: an "expected/actual" alert is sent;
  - equal: the spark checker runs, if one is configured.
- For each queued name it sends a "will restart" alert and launches the start
  command, with up to three launches. If all three fail, it escalates
  with one more alert.

The `inspect` command asks the ResourceManager for the running applications.
It appends a stub entry (`start_cmd` "TODO", `app_num` 1) for every running
name that passes a filter and is not configured yet.

Files:

- `model.dfy`: the data.
  - Configured entries and reported instances.
  - The effects of a cycle. Alerts are `(severity, subject, object, content)` records; the others are spark-checker calls and launch attempts.
  - The exceptions.
- `config.dfy`: the configuration document as a class edited in place.
  - Default node name.
  - Removal of inactive entries, through a descending deletion list, as the source does it.
  - The inspect merge.
  - Inspect argument validation.
- `locator.dfy`: the ResourceManager locator with its `available_hosts` counter, and the request that follows it.
- `reconcile.dfy`:
  - Grouping by name.
  - The per-entry comparison.
  - The whole cycle with its retry loop.
- `remediate.dfy`: the restart loop.
- `commands.dfy`: one iteration of the `check` loop and the `inspect` command.
- `scenarios.dfy`: concrete runs.
- `seqs.dfy` and `wrappers.dfy`: small generic helpers.

Network replies and process launches are inputs:

- A `RequestScript` says what each cluster-info probe and the cluster-apps request return during one request.
- A list of three `SpawnOutcome`s says what each launch of one application does.

Each imperative routine is a method with loops. It is proved equal to a
specification function (`LocateIndex`, `RequestOutcome`, `Group`, `Diff`,
`Remediate`, `Cycle`, `ActiveApps`). The promised properties are lemmas about
those functions.

Behaviour of the code a reader might not expect, which the model follows:

- An entry whose `start_cmd` is missing raises `KeyError` after its "will restart" alert. This stops the remaining restarts; the entry is not skipped.
- The ResourceManager failure alert does not list the hosts. They only go to the log.
- An empty cluster-apps payload `{}` raises `ValueError`, which is retried like an unreachable ResourceManager. A cluster with no applications answers `{"apps": null}`; a null `apps` or an empty `app` list yields an empty snapshot.

One place is deliberately different from the code. The over-provisioning alert at guardian.py:234 reads `app_num` without the default and raises KeyError for an entry without it (see "## Findings"). `Cycle` and the methods proved equal to it use the corrected comparison `DiffStep`. The code as written is modelled separately by `DiffStepAsWritten`, `DiffAsWritten` and `CycleAsWritten`.

## Model

| member | source | states |
|---|---|---|
| Config.GuardianConfig.constructor | guardian.py:49-54 | the parsed document holds exactly the given node name, host list and entries |
| Config.GuardianConfig.SetConfigDefault | guardian.py:43-45 | `node_name` becomes "my_guardian" only when absent; hosts and entries are unchanged |
| Config.GuardianConfig.GetActiveAppConfig | guardian.py:104-115 | the in-place deletions along the descending index list leave exactly `ActiveApps` of the old entries; nothing else changes |
| Config.InactiveIndices | guardian.py:106-110 | the first loop yields every inactive index exactly once, each within the list, in descending order |
| Config.GuardianConfig.DeleteIndices | guardian.py:112-113 | deleting the indices of such a list one by one leaves exactly `ActiveApps` of the entries; nothing else changes |
| Config.DeleteNext | guardian.py:112-113 | each deletion removes the entry at the next listed index, which lies below the previous one, and advances the partially filtered list by one stage |
| Config.DeleteStep | guardian.py:112-113 | deleting one inactive index, with no inactive entry between it and the previous deletion, keeps the partially filtered list in the expected form |
| Config.DeletionsComplete | guardian.py:107-113 | once every index of the deletion list has been deleted, the result is the filtered list |
| Config.ActiveAppsMembers | guardian.py:109 | an entry survives if and only if it was present and its `active` is not the literal `false` |
| Config.ActiveAppsRemovesInactive | guardian.py:104-113 | exactly the inactive entries are removed: the length drops by their count |
| Config.ActiveAppsKeepsAll | guardian.py:107-113 | a list without inactive entries is left unchanged |
| Config.ActiveAppsAppend | guardian.py:107-113 | filtering commutes with concatenation, so survivors keep their relative order |
| Config.ActiveAppsIdempotent | guardian.py:104-115 | removing inactive entries a second time changes nothing |
| Config.GuardianConfig.AddUnconfigured | guardian.py:351-365 | old entries are kept as a prefix; one stub per filtered, unconfigured running name is appended; no name is appended twice; nothing else changes |
| Config.MergeSaturates | guardian.py:351-365 | after the merge, every filtered running name is configured |
| Config.MergeStep | guardian.py:361-365 | appending a stub for a name not merged yet keeps the merge well formed and adds exactly that name |
| Config.GetArgsInspect | guardian.py:303-329 | an invalid argument count, invalid JSON or a filter other than `app_name` is rejected, checked in that order; otherwise the config, filter and pattern are returned |
| Locator.LowerChar | guardian.py:138 | a character becomes a different ASCII lower-case letter if and only if it is an ASCII capital, the dotted capital I or the Kelvin sign |
| Locator.LocateIndex | guardian.py:118-150 | a chosen host index is within the host list |
| Locator.LocateIndexSpec | guardian.py:122-146 | the first host whose lowered `haState` is "active" is chosen. NoAvailableYarnRM is raised if and only if every probe timed out or was non-200, including for an empty list. NoActiveYarnRM is raised if and only if some host answered and none was active |
| Locator.LocateIgnoresLaterHosts | guardian.py:124-140 | hosts after the active one do not affect the result |
| Locator.GetYarnActiveRm | guardian.py:118-150 | returns the located host or its error. Probing stops right after the first active host. `available_hosts` is the host count minus the unreachable probes made, and stays within 0..len(hosts) |
| Locator.RequestOutcome | guardian.py:153-167 | a successful request names a host within the list |
| Locator.RequestOutcomeSpec | guardian.py:153-167 | a request succeeds if and only if some host is active and the apps reply is a 200 with a non-empty payload. Locator errors pass through unchanged |
| Locator.RequestYarn | guardian.py:153-167 | returns the payload and the active host exactly as `RequestOutcome` says, or its error |
| Reconcile.WithNameMembers | guardian.py:200-206 | a name's group holds exactly the running entries with that name |
| Reconcile.LookupGroup | guardian.py:200-216 | the group looked up for a name is its entries in report order; an absent name gets an empty list |
| Reconcile.GroupStep | guardian.py:201-206 | handling one more running entry appends it to its own name's group only |
| Reconcile.NamesSnoc | guardian.py:201-206 | one more running entry adds its name, and only its name, to the keys of the map |
| Reconcile.GroupTotal | guardian.py:200-206 | the group sizes add up to the number of running entries |
| Reconcile.GroupByName | guardian.py:200-206 | the loop builds exactly `Group` of the running list: one key per reported name, holding its instances in report order |
| Reconcile.Diff | guardian.py:208-250 | at most one restart entry per configured entry |
| Reconcile.DiffNotRunning | guardian.py:218-227 | a name is queued for restart if and only if some configured entry with it has fewer instances than expected (default 1) |
| Reconcile.DiffRestartCount | guardian.py:225-227 | one restart entry per under-provisioned configured entry, duplicates kept |
| Reconcile.DiffStepCounts | guardian.py:225-250 | one entry yields one "expected/actual" alert exactly when over-provisioned, and one spark check exactly when the counts are equal and spark is configured |
| Reconcile.DiffOverAlertCount | guardian.py:230-236 | the number of "expected/actual" alerts equals the number of over-provisioned entries |
| Reconcile.DiffSparkCount | guardian.py:238-250 | the number of spark-checker calls equals the number of entries whose counts are equal and that have both checker keys with type "spark" |
| Reconcile.DiffSparkChecks | guardian.py:238-250 | each checker call gets the entry's instances, the entry itself, the active ResourceManager and the node name |
| Reconcile.DiffOverAlerts | guardian.py:230-236 | every alert of the comparison names a configured entry that runs more instances than expected, and its content is "expected/actual" with that entry's expected count and its number of running instances |
| Reconcile.DiffEventKinds | guardian.py:229-250 | the comparison emits only checker calls and "expected/actual" alerts that carry a count |
| Reconcile.DiffStepAsWrittenRaises | guardian.py:219-236 | the comparison as written raises KeyError exactly when `app_num` is absent and two or more instances run; otherwise it agrees with `DiffStep` |
| Reconcile.DiffAsWrittenSpec | guardian.py:208-236 | the comparison loop as written finishes if and only if no entry lacks `app_num` while running two or more instances; it then yields exactly `Diff` |
| Reconcile.DiffAsWrittenStops | guardian.py:208-236 | otherwise the loop as written raises KeyError at the first such entry, after the effects of the entries before it and before any later entry is compared |
| Reconcile.AppNumKeyErrorExample | guardian.py:233-234 | "etl" without `app_num` and with two instances raises KeyError as written, while the corrected step sends the alert "1/2" |
| Reconcile.Cycle | guardian.py:170-256 | a cycle makes between one and three requests |
| Reconcile.CycleAsWrittenSpec | guardian.py:194-256 | after a successful fetch, the cycle as written equals `Cycle` when no entry lacks `app_num` while running two or more instances; otherwise it ends with KeyError, with only the effects of the entries before the first such entry and no restart |
| Reconcile.CycleAsWrittenUnfetched | guardian.py:172-192 | when no request fetched the application list, the cycle as written equals `Cycle` |
| Reconcile.CycleRmFailure | guardian.py:172-192 | the ResourceManager alert is sent if and only if all three attempts failed with a retried error. In that case it is the only effect and nothing is compared or restarted |
| Reconcile.CycleUncaught | guardian.py:158-181 | a failed apps request or a timeout on it is not retried: it escapes the cycle with no effect |
| Reconcile.CycleNoIndexError | guardian.py:252-269 | every name handed to remediation is configured, so the lookup at line 269 never raises IndexError |
| Reconcile.RequestWithRetry | guardian.py:171-181 | the loop stops at the first attempt that succeeds or fails with an error that is not retried; that attempt's reply or error is returned |
| Reconcile.CompareApps | guardian.py:208-250 | the comparison loop produces exactly the effects and restart list of `Diff`, in configuration order |
| Reconcile.CheckImpl | guardian.py:170-256 | the retry loop, the grouping loop, the comparison loop and remediation produce exactly `Cycle`; at most three requests |
| Remediation.StartCommand | guardian.py:268-269 | IndexError is raised if and only if no entry has the name |
| Remediation.StartCommandSpec | guardian.py:268-269 | otherwise the first matching entry's `start_cmd` is used, or KeyError is raised when that entry has none |
| Remediation.AttemptsSpec | guardian.py:272-292 | between one and three launches; every launch but the last failed; the last succeeded unless all three failed |
| Remediation.RemediateOneSpec | guardian.py:260-298 | the "will restart" alert comes first and is sent once. Launches are as counted by `Attempts`. One escalation is sent, last, if and only if all three launches failed |
| Remediation.RemediateStops | guardian.py:268-269 | once a lookup raises, later names are not processed |
| Remediation.RemediateIsolation | guardian.py:259-298 | when every name has a start command, nothing is raised, there are exactly as many "will restart" alerts as names, and exactly as many escalation alerts as names whose three launches all failed |
| Remediation.RemediateAlertsEach | guardian.py:259-298 | when every name has a start command, each name gets its own "will restart" alert, and each name whose three launches all failed gets its own escalation alert |
| Remediation.RemediateEventKinds | guardian.py:259-298 | remediation emits only restart alerts, launches and escalations |
| Remediation.RemediateConfiguredNames | guardian.py:268-269 | names that are all configured never cause IndexError |
| Remediation.LaunchWithRetry | guardian.py:271-287 | the launch loop stops at the first successful launch; it records one launch per attempt made, as `Attempts` counts them |
| Remediation.AlertNotRunningApps | guardian.py:259-300 | the per-name loop with its three-launch retry loop produces exactly `Remediate` |
| Commands.RunCycle | guardian.py:49-85 | one iteration of the check loop: the node name is defaulted, inactive entries are removed in place, and the cycle runs over the remaining entries |
| Commands.CommandInspect | guardian.py:332-369 | a request error escapes and leaves the configuration unchanged. A null apps payload changes nothing. Otherwise the entries are merged as `MergedWith` states |
| Scenarios.LocateThirdHost | guardian.py:124-140 | with an unreachable host, a standby and then "ACTIVE", the third host is chosen |
| Scenarios.LocateDottedCapitalI | guardian.py:138 | a host answering "ACTİVE" (dotted capital I) is chosen, since its lower case is "active" |
| Scenarios.LocateFailures | guardian.py:142-146 | all unreachable, or an empty list, gives NoAvailableYarnRM; a standby with no active host gives NoActiveYarnRM |
| Scenarios.UnderProvisionedEntry | guardian.py:225-227 | `app_num` 2 with one instance queues "etl" once and alerts nothing |
| Scenarios.OverProvisionedEntry | guardian.py:230-236 | `app_num` 1 with three instances sends one alert with "1/3" and queues nothing |
| Scenarios.InactiveEntryDropped | guardian.py:104-115 | of `a` (inactive) and `b`, only `b` remains |
| Scenarios.RemediateSingle | guardian.py:259-298 | restarting "etl" alone emits its alert, its launches and, after three failures, its escalation |
| Scenarios.SingleHostFetched | guardian.py:153-181 | a single active host answering `{"apps": null}` or a list of applications settles the first attempt, with no applications or with that list |
| Scenarios.EtlQueued | guardian.py:218-227 | with nothing running, "etl" is queued for restart and nothing is alerted |
| Scenarios.RestartSucceeds | guardian.py:170-298 | with no applications running and a successful first launch, the cycle emits one alert and one launch |
| Scenarios.RestartEscalates | guardian.py:170-298 | when every launch reports errors, the cycle emits three launches and then one escalation |
| Scenarios.EtlGrouped | guardian.py:200-216 | grouping `n` reported "etl" instances gives "etl" exactly those instances |
| Scenarios.EtlTwiceCompared | guardian.py:219-236 | with two "etl" instances, "etl" without `app_num` raises as written, while the corrected comparison sends the alert "1/2" and queues nothing |
| Scenarios.AppNumKeyErrorCycle | guardian.py:208-236 | "etl" without `app_num`, running twice: the cycle as written raises KeyError before any effect, while the corrected cycle sends the alert "1/2" |
| Scenarios.UnreachableCycle | guardian.py:172-192 | unreachable hosts on all three attempts give exactly the one ResourceManager alert |

## Left out

- Logging, the rotating log file and every `print` of process output: these have no effect on decisions.
- The `ThreadCheck` thread, the endless `command_check` loop and its `time.sleep`. `Commands.RunCycle` models one iteration.
- Opening and parsing the configuration file (`json.load`) and the exception for invalid JSON in `get_args_check`. The parsed document is the constructor's input. In `GetArgsInspect`, parsing is the `load` parameter.
- The HTTP library.
  - Probes and the apps request are scripted outcomes.
  - A probe `Timeout` is a connect timeout, the only exception caught at guardian.py:128. Other exceptions of the probe at guardian.py:127, such as a refused connection or a read timeout, escape `_get_yarn_active_rm`, are not caught at guardian.py:178 and end the cycle; they are not modelled.
  - A timeout of the apps request is the only other exception of that request the model has, besides a non-200 reply and an empty payload. Other exceptions of `requests.get` at guardian.py:158, such as a connection error, are not caught at guardian.py:178 and are not modelled.
  - Malformed JSON replies and missing `clusterInfo`/`haState` keys are not modelled.
- `subprocess.Popen`, `communicate` and `raw_cmd.split()`: each launch is a scripted outcome, and the recorded launch carries the unsplit command.
- `spark_checker.check` and the alert client: these are recorded as `SparkCheck` and `Alert` events. The checker's own behaviour and exceptions are not part of this model.
- An exception from `spark_checker.check` at guardian.py:250 is not caught: it escapes `check_impl`, so the later entries are not compared and nothing is restarted. A `SparkCheck` event has no outcome, so the model cannot produce this.
- The regular-expression filter of `inspect`: it is an arbitrary predicate `matches`.
- The Flask configuration API, the command-line dispatch and the `json.dumps` output of `inspect`.
- Locator.Lower: maps only the characters whose lower case is ASCII: the ASCII capitals, the dotted capital I (U+0130) and the Kelvin sign (U+212A). These are the only characters whose lowering can matter in a comparison with "active". Python 2's `unicode.lower` also lowers other non-ASCII letters, to non-ASCII letters.
- Configuration values of other JSON types are not modelled. `app_num` is an integer or absent; `start_cmd`, `check_type` and `check_options` are strings or absent. Python 2 compares mixed types without raising, so such values change decisions rather than stop the cycle:
  - a null `app_num` is below every count, so the alert "None/N" is sent every cycle;
  - a string `app_num` is above every count, so the name is queued for restart every cycle;
  - a non-string `check_type` never equals "spark";
  - a non-string `start_cmd` raises AttributeError at `split`.
- A cluster-apps payload whose `apps` object has no `app` key raises KeyError at guardian.py:198; it is not modelled.
- A non-empty cluster-apps payload without an `apps` key raises KeyError at guardian.py:194; it is not modelled. A non-empty payload always carries `apps` in the model.
- A configuration entry without `app_name` raises KeyError at guardian.py:210 and guardian.py:357; it is not modelled. Every `AppConfig` has a `name`.
- An empty or blank `start_cmd` splits to an empty command, and Python 2's `Popen([])` then raises IndexError at guardian.py:275, which `except OSError` does not catch. A `SpawnOutcome` cannot express this: every launch in the model either fails with OSError, reports errors or finishes.
- Reconcile.Cycle: uses the corrected comparison `DiffStep`, which alerts with the defaulted expected count. On an entry without `app_num` that runs two or more instances, such as `{"app_name": "etl"}` with two "etl" instances, guardian.py:234 raises KeyError instead. `Reconcile.CycleAsWritten` models that behaviour.
- Reconcile.CompareApps: the comparison loop follows the corrected `DiffStep` and does not raise the KeyError of guardian.py:234 on the same input; `Reconcile.DiffAsWritten` models the loop as written.
- Reconcile.CheckImpl: equal to the corrected `Cycle`, not to `CycleAsWritten`, on the same input.
- Commands.RunCycle: runs the corrected cycle, so it does not model the KeyError that ends the checking thread on the same input.
- The `timeout` parameters of the locator and the request: they only bound the waiting time of the HTTP calls.

## Findings

| source | as written | input that shows it | evidently intended | confidence | as-written member | corrected member |
|---|---|---|---|---|---|---|
| guardian.py:233-234 | the "expected/actual" alert reads `app_config['app_num']`, which raises KeyError when the key is absent. The exception escapes `check_impl` before the later entries are compared and before any name is restarted | an entry `{"app_name": "etl", "start_cmd": "run-etl"}` with two running "etl" instances | report the defaulted expected count: alert "Unexpected running app number, expected/actual: 1/2" | not executed | Reconcile.CycleAsWritten | Reconcile.Cycle |

=== FILE: commands.dfy ===
/**
 * The two commands of the watchdog, with file reading, the thread, the sleep
 * between cycles and the final pretty-printing left to the caller: one
 * iteration of the `check` loop and the merge performed by `inspect`.
 */
module Commands {
  import opened Wrappers
  import opened Model
  import opened Config
  import opened Locator
  import opened Remediation
  import opened Reconcile

  /**
   * One iteration of the check loop on an already parsed configuration:
   * default the node name, drop the inactive applications, then run one
   * reconciliation cycle over what remains.
   */
  method RunCycle(cfg: GuardianConfig, scripts: seq<RequestScript>, spawns: seq<seq<SpawnOutcome>>)
    returns (res: CycleResult)
    requires ScriptsFit(cfg.apiHosts, scripts) && SpawnsFit(spawns, |cfg.apps|)
    modifies cfg
    ensures cfg.nodeName == Some(if old(cfg.nodeName).None? then DefaultNodeName else old(cfg.nodeName).value)
    ensures cfg.apiHosts == old(cfg.apiHosts)
    ensures cfg.apps == ActiveApps(old(cfg.apps))
    ensures SpawnsFit(spawns, |cfg.apps|)
    ensures res == Cycle(old(cfg.apiHosts), cfg.nodeName.value, ActiveApps(old(cfg.apps)), scripts, spawns)
  {
    cfg.SetConfigDefault();
    cfg.GetActiveAppConfig();
    res := CheckImpl(cfg.apiHosts, cfg.nodeName.value, cfg.apps, scripts, spawns);
  }

  /**
   * The inspect command after its arguments are checked: one request to the
   * ResourceManager (no retry; its errors propagate), nothing to do when the
   * cluster reports no applications, otherwise a stub entry for every
   * filtered running name that is not configured yet.
   */
  method CommandInspect(cfg: GuardianConfig, script: RequestScript, matches: string -> bool)
    returns (raised: Option<Error>)
    requires |script.probes| == |cfg.apiHosts|
    modifies cfg
    ensures cfg.nodeName == old(cfg.nodeName) && cfg.apiHosts == old(cfg.apiHosts)
    ensures raised.Some? <==> RequestOutcome(script).Err?
    ensures RequestOutcome(script).Err? ==> raised == Some(RequestOutcome(script).error)
    ensures RequestOutcome(script).Err? || RequestOutcome(script).value.1.None? ==> cfg.apps == old(cfg.apps)
    ensures RequestOutcome(script).Ok? && RequestOutcome(script).value.1.Some? ==>
      MergedWith(old(cfg.apps), cfg.apps, Unconfigured(RequestOutcome(script).value.1.value, matches, old(cfg.apps)))
  {
    var reply := RequestYarn(cfg.apiHosts, script);
    if reply.Err? {
      return Some(reply.error);
    }
    var (_, runningApps) := reply.value;
    if runningApps.None? {
      return None;
    }
    cfg.AddUnconfigured(runningApps.value, matches);
    raised := None;
  }
}

=== FILE: config.dfy ===
/**
 * The configuration document as the watchdog holds it in memory, and the
 * in-place edits made to it: the `node_name` default, the removal of inactive
 * applications, and the stub entries added by the inspect command.
 */
module Config {
  import opened Wrappers
  import opened Seqs
  import opened Model

  const DefaultNodeName := "my_guardian"

  /** An entry is dropped only when its `active` key holds the literal `false`. */
  predicate Inactive(a: AppConfig)
  {
    a.active == Some(JBool(false))
  }

  /** The entries that are not inactive, in their original order. */
  function ActiveApps(apps: seq<AppConfig>): (r: seq<AppConfig>)
    ensures |r| <= |apps|
  {
    if apps == [] then []
    else
      var last := apps[|apps| - 1];
      ActiveApps(apps[..|apps| - 1]) + (if Inactive(last) then [] else [last])
  }

  /** Filtering distributes over concatenation, so relative order is kept. */
  lemma {:induction false} ActiveAppsAppend(a: seq<AppConfig>, b: seq<AppConfig>)
    ensures ActiveApps(a + b) == ActiveApps(a) + ActiveApps(b)
    decreases |b|
  {
    if b == [] {
      assert a + b == a;
    } else {
      var b' := b[..|b| - 1];
      assert (a + b)[..|a + b| - 1] == a + b';
      ActiveAppsAppend(a, b');
    }
  }

  /** An entry survives exactly when it was present and not inactive. */
  lemma {:induction false} ActiveAppsMembers(apps: seq<AppConfig>)
    ensures forall x :: x in ActiveApps(apps) <==> x in apps && !Inactive(x)
  {
    if apps != [] {
      var init := apps[..|apps| - 1];
      ActiveAppsMembers(init);
      assert apps == init + [apps[|apps| - 1]];
    }
  }

  /** The number of entries removed is the number of inactive entries. */
  lemma {:induction false} ActiveAppsRemovesInactive(apps: seq<AppConfig>)
    ensures |ActiveApps(apps)| == |apps| - CountIf(apps, Inactive)
  {
    if apps != [] {
      ActiveAppsRemovesInactive(apps[..|apps| - 1]);
    }
  }

  /** Without inactive entries nothing is removed. */
  lemma {:induction false} ActiveAppsKeepsAll(apps: seq<AppConfig>)
    requires forall j :: 0 <= j < |apps| ==> !Inactive(apps[j])
    ensures ActiveApps(apps) == apps
  {
    if apps != [] {
      var init := apps[..|apps| - 1];
      ActiveAppsKeepsAll(init);
      assert apps == init + [apps[|apps| - 1]];
    }
  }

  /** Removing inactive entries twice removes nothing more. */
  lemma ActiveAppsIdempotent(apps: seq<AppConfig>)
    ensures ActiveApps(ActiveApps(apps)) == ActiveApps(apps)
  {
    ActiveAppsMembers(apps);
    ActiveAppsKeepsAll(ActiveApps(apps));
  }

  /** The names of running instances that pass the filter but are not configured. */
  function Unconfigured(running: seq<RunningApp>, matches: string -> bool, apps: seq<AppConfig>): set<string>
  {
    (set n | n in NamesOf(running) && matches(n)) - ConfiguredNames(apps)
  }

  /** The entry the inspect command adds for an unconfigured running application. */
  function Stub(name: string): AppConfig
  {
    AppConfig(name, Some(1), Some("TODO"), None, None, None)
  }

  /**
   * `apps` is `before` followed by exactly one stub for each name of `wanted`,
   * with no name added twice.
   */
  ghost predicate MergedWith(before: seq<AppConfig>, apps: seq<AppConfig>, wanted: set<string>)
  {
    && |before| <= |apps|
    && apps[..|before|] == before
    && (forall j :: |before| <= j < |apps| ==> apps[j] == Stub(apps[j].name) && apps[j].name in wanted)
    && (forall n :: n in wanted ==> exists j :: |before| <= j < |apps| && apps[j].name == n)
    && (forall j, j' :: |before| <= j < j' < |apps| ==> apps[j].name != apps[j'].name)
  }

  /** Adding a stub for a name not merged yet extends the merge by that name. */
  lemma MergeStep(before: seq<AppConfig>, apps: seq<AppConfig>, done: set<string>, name: string)
    requires MergedWith(before, apps, done) && name !in done
    ensures MergedWith(before, apps + [Stub(name)], done + {name})
  {
    var apps' := apps + [Stub(name)];
    assert apps'[..|before|] == apps[..|before|];
    forall n | n in done + {name}
      ensures exists j :: |before| <= j < |apps'| && apps'[j].name == n
    {
      if n == name {
        assert apps'[|apps|].name == n;
      } else {
        var j :| |before| <= j < |apps| && apps[j].name == n;
        assert apps'[j] == apps[j];
      }
    }
  }

  /** After a merge, merging the same running list again finds nothing to add. */
  lemma MergeSaturates(running: seq<RunningApp>, matches: string -> bool, before: seq<AppConfig>, apps: seq<AppConfig>)
    requires MergedWith(before, apps, Unconfigured(running, matches, before))
    ensures Unconfigured(running, matches, apps) == {}
  {
    var wanted := Unconfigured(running, matches, before);
    forall n | n in NamesOf(running) && matches(n)
      ensures n in ConfiguredNames(apps)
    {
      if exists k :: 0 <= k < |before| && before[k].name == n {
        var k :| 0 <= k < |before| && before[k].name == n;
        assert apps[k] == before[k];
      } else {
        assert n in wanted;
        var j :| |before| <= j < |apps| && apps[j].name == n;
      }
    }
  }

  /** The configuration document, edited in place by the watchdog. */
  class GuardianConfig {
    var nodeName: Option<string>
    var apiHosts: seq<string>
    var apps: seq<AppConfig>

    constructor (nodeName: Option<string>, apiHosts: seq<string>, apps: seq<AppConfig>)
      ensures this.nodeName == nodeName && this.apiHosts == apiHosts && this.apps == apps
    {
      this.nodeName := nodeName;
      this.apiHosts := apiHosts;
      this.apps := apps;
    }

    /** Fills in `node_name` when the document has none. */
    method SetConfigDefault()
      modifies this
      ensures nodeName == if old(nodeName).None? then Some(DefaultNodeName) else old(nodeName)
      ensures apiHosts == old(apiHosts) && apps == old(apps)
    {
      if nodeName.None? {
        nodeName := Some(DefaultNodeName);
      }
    }

    /**
     * Deletes, in place, every inactive entry: the inactive indices are
     * collected in descending order, so each deletion leaves the indices
     * still to be deleted pointing at the same entries.
     */
    method GetActiveAppConfig()
      modifies this
      ensures apps == ActiveApps(old(apps))
      ensures nodeName == old(nodeName) && apiHosts == old(apiHosts)
    {
      var delList := InactiveIndices(apps);
      DeleteIndices(delList);
    }

    /**
     * Deletes the entries at the indices of `delList`, first to last; the
     * list being descending, each deletion leaves the indices still to come
     * pointing at the same entries.
     */
    method DeleteIndices(delList: seq<nat>)
      requires DeletionList(apps, delList)
      modifies this
      ensures apps == ActiveApps(old(apps))
      ensures nodeName == old(nodeName) && apiHosts == old(apiHosts)
    {
      ghost var orig := apps;
      var k := 0;
      while k < |delList|
        invariant 0 <= k <= |delList|
        invariant nodeName == old(nodeName) && apiHosts == old(apiHosts)
        invariant Bound(orig, delList, k) <= |orig| && apps == Stage(orig, Bound(orig, delList, k))
      {
        var d := delList[k];
        DeleteNext(orig, delList, k);
        apps := apps[..d] + apps[d + 1..];
        k := k + 1;
      }
      DeletionsComplete(orig, delList);
    }

    /**
     * Appends one stub entry for every distinct running name that passes the
     * filter and is not configured yet.
     */
    method AddUnconfigured(running: seq<RunningApp>, matches: string -> bool)
      modifies this
      ensures MergedWith(old(apps), apps, Unconfigured(running, matches, old(apps)))
      ensures nodeName == old(nodeName) && apiHosts == old(apiHosts)
    {
      var runningNames := set n | n in NamesOf(running) && matches(n);
      var configured := ConfiguredNames(apps);
      var todo := runningNames - configured;
      ghost var wanted := todo;
      assert apps[..|apps|] == apps;
      while todo != {}
        invariant todo <= wanted
        invariant nodeName == old(nodeName) && apiHosts == old(apiHosts)
        invariant MergedWith(old(apps), apps, wanted - todo)
        decreases todo
      {
        var name :| name in todo;
        MergeStep(old(apps), apps, wanted - todo, name);
        apps := apps + [Stub(name)];
        assert wanted - (todo - {name}) == (wanted - todo) + {name};
        todo := todo - {name};
      }
      assert wanted - todo == Unconfigured(running, matches, old(apps));
    }
  }

  /**
   * `delList` holds exactly the indices of the inactive entries of `orig`,
   * in descending order.
   */
  predicate DeletionList(orig: seq<AppConfig>, delList: seq<nat>)
  {
    && (forall a, b :: 0 <= a < b < |delList| ==> delList[a] > delList[b])
    && (forall m :: 0 <= m < |delList| ==> delList[m] < |orig| && Inactive(orig[delList[m]]))
    && (forall j :: 0 <= j < |orig| && Inactive(orig[j]) ==> j in delList)
  }

  /** The entries strictly between two consecutive deletions are active. */
  lemma BetweenDeletionsActive(orig: seq<AppConfig>, delList: seq<nat>, k: nat)
    requires DeletionList(orig, delList) && k < |delList|
    ensures forall j :: delList[k] < j < (if k == 0 then |orig| else delList[k - 1]) ==> !Inactive(orig[j])
  {
    var p := if k == 0 then |orig| else delList[k - 1];
    forall j | delList[k] < j < p
      ensures !Inactive(orig[j])
    {
    }
  }

  /** The end of the part not yet filtered after the first `k` deletions. */
  ghost function Bound(orig: seq<AppConfig>, delList: seq<nat>, k: nat): nat
    requires k <= |delList|
  {
    if k == 0 then |orig| else delList[k - 1]
  }

  /** The entries after deleting every inactive index at or above `p`. */
  ghost function Stage(orig: seq<AppConfig>, p: nat): seq<AppConfig>
    requires p <= |orig|
  {
    orig[..p] + ActiveApps(orig[p..])
  }

  /**
   * Deleting the `k`-th index of the list from the entries left after the
   * first `k` deletions leaves the entries before it untouched and the rest filtered.
   */
  lemma DeleteNext(orig: seq<AppConfig>, delList: seq<nat>, k: nat)
    requires DeletionList(orig, delList) && k < |delList|
    ensures var p, d := Bound(orig, delList, k), delList[k];
      && d < p <= |orig| && Bound(orig, delList, k + 1) == d
      && Stage(orig, p)[..d] + Stage(orig, p)[d + 1..] == Stage(orig, d)
  {
    BetweenDeletionsActive(orig, delList, k);
    DeleteStep(orig, delList[k], Bound(orig, delList, k));
  }

  /** Below the smallest index of the deletion list every entry is active. */
  lemma ActiveBelowDeletions(orig: seq<AppConfig>, delList: seq<nat>)
    requires DeletionList(orig, delList)
    ensures var p := if delList == [] then |orig| else delList[|delList| - 1];
      forall j :: 0 <= j < p ==> !Inactive(orig[j])
  {
    var p := if delList == [] then |orig| else delList[|delList| - 1];
    forall j | 0 <= j < p
      ensures j !in delList
    {
      assert forall m :: 0 <= m < |delList| ==> delList[m] >= p;
    }
  }

  /** A list whose first `p` entries are active filters to them followed by the filtered rest. */
  lemma ActivePrefix(orig: seq<AppConfig>, p: nat)
    requires p <= |orig|
    requires forall j :: 0 <= j < p ==> !Inactive(orig[j])
    ensures orig[..p] + ActiveApps(orig[p..]) == ActiveApps(orig)
  {
    var prefix, rest := orig[..p], orig[p..];
    assert orig == prefix + rest;
    PrefixOfActive(orig, p);
    ActiveAppsKeepsAll(prefix);
    ActiveAppsAppend(prefix, rest);
  }

  lemma PrefixOfActive(orig: seq<AppConfig>, p: nat)
    requires p <= |orig|
    requires forall j :: 0 <= j < p ==> !Inactive(orig[j])
    ensures forall i :: 0 <= i < |orig[..p]| ==> !Inactive(orig[..p][i])
  {
  }

  /** Once every inactive index is deleted, what is left is the filtered list. */
  lemma DeletionsComplete(orig: seq<AppConfig>, delList: seq<nat>)
    requires DeletionList(orig, delList)
    ensures Bound(orig, delList, |delList|) <= |orig|
    ensures Stage(orig, Bound(orig, delList, |delList|)) == ActiveApps(orig)
  {
    ActiveBelowDeletions(orig, delList);
    ActivePrefix(orig, if delList == [] then |orig| else delList[|delList| - 1]);
  }

  /**
   * The indices of the inactive entries, each put in front of the list as it
   * is found, so the list is in descending order.
   */
  method InactiveIndices(apps: seq<AppConfig>) returns (delList: seq<nat>)
    ensures DeletionList(apps, delList)
  {
    delList := [];
    var i := 0;
    while i < |apps|
      invariant 0 <= i <= |apps|
      invariant forall a, b :: 0 <= a < b < |delList| ==> delList[a] > delList[b]
      invariant forall m :: 0 <= m < |delList| ==> delList[m] < i && Inactive(apps[delList[m]])
      invariant forall j :: 0 <= j < i && Inactive(apps[j]) ==> j in delList
    {
      if Inactive(apps[i]) {
        delList := [i] + delList;
      }
      i := i + 1;
    }
  }

  /** Filtering from an inactive entry at `d` drops it and keeps the active run up to `p`. */
  lemma InactiveHeadDropped(orig: seq<AppConfig>, d: nat, p: nat)
    requires d < p <= |orig|
    requires Inactive(orig[d])
    requires forall j :: d < j < p ==> !Inactive(orig[j])
    ensures ActiveApps(orig[d..]) == orig[d + 1..p] + ActiveApps(orig[p..])
  {
    var x, mid, rest := orig[d], orig[d + 1..p], orig[p..];
    assert orig[d..] == [x] + (mid + rest);
    ActiveAppsAppend([x], mid + rest);
    assert ActiveApps([x]) == [] by {
      assert [x][..0] == [];
    }
    ActiveAppsAppend(mid, rest);
    forall j | 0 <= j < |mid|
      ensures !Inactive(mid[j])
    {
      assert mid[j] == orig[d + 1 + j];
    }
    ActiveAppsKeepsAll(mid);
  }

  /** Deleting an inactive entry at `d`, in front of the part already filtered. */
  lemma DeleteStep(orig: seq<AppConfig>, d: nat, p: nat)
    requires d < p <= |orig|
    requires Inactive(orig[d])
    requires forall j :: d < j < p ==> !Inactive(orig[j])
    ensures var apps := orig[..p] + ActiveApps(orig[p..]);
      apps[..d] + apps[d + 1..] == orig[..d] + ActiveApps(orig[d..])
  {
    var tail := ActiveApps(orig[p..]);
    var apps := orig[..p] + tail;
    assert apps[..d] == orig[..d];
    assert apps[d + 1..] == orig[d + 1..p] + tail;
    InactiveHeadDropped(orig, d, p);
  }

  datatype ArgsError = InvalidArgumentNumber | InvalidJson | InvalidFilter

  datatype InspectArgs<C> = InspectArgs(config: C, filter: string, value: string)

  /**
   * Validates the arguments of the inspect command: a config file, the filter
   * name (only `app_name`) and a pattern. `load` stands for reading and parsing
   * the file; `None` means it is not valid JSON.
   */
  function GetArgsInspect<C>(args: seq<string>, load: string -> Option<C>): (r: Result<InspectArgs<C>, ArgsError>)
    ensures r.Ok? <==> |args| == 3 && load(args[0]).Some? && args[1] == "app_name"
    ensures r == Err(InvalidArgumentNumber) <==> |args| != 3
    ensures r == Err(InvalidJson) <==> |args| == 3 && load(args[0]).None?
    ensures r.Ok? ==> r.value == InspectArgs(load(args[0]).value, "app_name", args[2])
  {
    if |args| != 3 then Err(InvalidArgumentNumber)
    else match load(args[0])
      case None => Err(InvalidJson)
      case Some(config) =>
        if args[1] != "app_name" then Err(InvalidFilter)
        else Ok(InspectArgs(config, args[1], args[2]))
  }
}

=== FILE: locator.dfy ===
/**
 * Finding the active YARN ResourceManager among the configured hosts, and the
 * request for the accepted and running applications that follows it. Every
 * HTTP exchange is a scripted outcome: `probes[j]` is what the cluster-info
 * request to `hosts[j]` yields, `fetch` what the cluster-apps request yields.
 */
module Locator {
  import opened Wrappers
  import opened Seqs
  import opened Model

  /**
   * The outcome of one cluster-info request. `Timeout` is a connect timeout,
   * the only exception the probe catches; it and a non-200 reply each count
   * the host as unavailable. Any other timeout is not modelled.
   */
  datatype Probe = Timeout | Non200 | Responded(haState: string)

  /** The payload of the cluster-apps request: `{}`, `{"apps": null}` or a list of apps. */
  datatype Stats = EmptyStats | AppsNull | AppsList(apps: seq<RunningApp>)

  /** The outcome of one cluster-apps request. */
  datatype Fetch = FetchTimeout | FetchNon200 | FetchOk(stats: Stats)

  /** Everything one call of the request routine sees from the network. */
  datatype RequestScript = RequestScript(probes: seq<Probe>, fetch: Fetch)

  /**
   * The simple lower-case mapping of Python 2's `unicode.lower` for the
   * characters whose lower case is ASCII: the ASCII capitals, the dotted
   * capital I (U+0130) and the Kelvin sign (U+212A). Every other character
   * is kept; its lower case, if it has one, is not ASCII.
   */
  function LowerChar(c: char): (r: char)
    ensures 'a' <= r <= 'z' && r != c <==> 'A' <= c <= 'Z' || c == '\U{0130}' || c == '\U{212A}'
  {
    if 'A' <= c <= 'Z' then (c as int + 32) as char
    else if c == '\U{0130}' then 'i'
    else if c == '\U{212A}' then 'k'
    else c
  }

  /** Lower-casing, as far as a comparison with "active" can tell. */
  function Lower(s: string): (r: string)
    ensures |r| == |s|
  {
    seq(|s|, i requires 0 <= i < |s| => LowerChar(s[i]))
  }

  predicate Unreachable(p: Probe)
  {
    p.Timeout? || p.Non200?
  }

  predicate ReportsActive(p: Probe)
  {
    p.Responded? && Lower(p.haState) == "active"
  }

  /**
   * The host the locator settles on, as an index into the host list, or the
   * exception it raises.
   */
  function LocateIndex(probes: seq<Probe>): (r: Result<nat, Error>)
    ensures r.Ok? ==> r.value < |probes|
  {
    var k := FirstIndex(probes, ReportsActive);
    if k < |probes| then Ok(k)
    else if forall j :: 0 <= j < |probes| ==> Unreachable(probes[j]) then Err(NoAvailableYarnRM)
    else Err(NoActiveYarnRM)
  }

  /**
   * The first host, in list order, that reports "active" is chosen; without
   * one the error tells whether any host answered at all.
   */
  lemma LocateIndexSpec(probes: seq<Probe>)
    ensures LocateIndex(probes).Ok? <==> exists j :: 0 <= j < |probes| && ReportsActive(probes[j])
    ensures forall k :: LocateIndex(probes) == Ok(k) ==>
      ReportsActive(probes[k]) && forall j :: 0 <= j < k ==> !ReportsActive(probes[j])
    ensures LocateIndex(probes) == Err(NoAvailableYarnRM) <==>
      forall j :: 0 <= j < |probes| ==> Unreachable(probes[j])
    ensures LocateIndex(probes) == Err(NoActiveYarnRM) <==>
      (exists j :: 0 <= j < |probes| && probes[j].Responded?) &&
      (forall j :: 0 <= j < |probes| ==> !ReportsActive(probes[j]))
  {
    var k := FirstIndex(probes, ReportsActive);
    if k < |probes| {
      assert !Unreachable(probes[k]);
    } else if !forall j :: 0 <= j < |probes| ==> Unreachable(probes[j]) {
      var j :| 0 <= j < |probes| && !Unreachable(probes[j]);
      assert probes[j].Responded?;
    }
  }

  /** Once a host reports active, the hosts after it make no difference. */
  lemma LocateIgnoresLaterHosts(probes: seq<Probe>, later: seq<Probe>)
    requires LocateIndex(probes).Ok?
    ensures LocateIndex(probes + later) == LocateIndex(probes)
  {
    FirstIndexAppend(probes, later, ReportsActive);
  }

  /**
   * Probes the hosts in order, counting down the available hosts on a timeout
   * or a non-200 reply, and stops at the first host whose `haState` is
   * "active" in any case. `probed` is the number of hosts asked.
   */
  method GetYarnActiveRm(hosts: seq<string>, probes: seq<Probe>) returns (r: Result<string, Error>, probed: nat, available: int)
    requires |probes| == |hosts|
    ensures LocateIndex(probes).Ok? ==>
      r == Ok(hosts[LocateIndex(probes).value]) && probed == LocateIndex(probes).value + 1
    ensures LocateIndex(probes).Err? ==> r == Err(LocateIndex(probes).error) && probed == |hosts|
    ensures probed <= |hosts| && available == |hosts| - CountIf(probes[..probed], Unreachable)
    ensures 0 <= available <= |hosts|
  {
    var activeRm: Option<string> := None;
    available := |hosts|;
    var i := 0;
    while i < |hosts|
      invariant 0 <= i <= |hosts|
      invariant forall j :: 0 <= j < i ==> !ReportsActive(probes[j])
      invariant available == |hosts| - CountIf(probes[..i], Unreachable)
    {
      assert probes[..i + 1][..i] == probes[..i];
      match probes[i] {
        case Timeout =>
          available := available - 1;
        case Non200 =>
          available := available - 1;
        case Responded(haState) =>
          if Lower(haState) == "active" {
            activeRm := Some(hosts[i]);
            break;
          }
      }
      i := i + 1;
    }
    probed := if activeRm.Some? then i + 1 else i;
    assert probes[..|hosts|] == probes;
    if activeRm.None? {
      CountIfAll(probes, Unreachable);
    } else {
      assert probes[..i + 1][..i] == probes[..i];
    }
    if available == 0 {
      r := Err(NoAvailableYarnRM);
    } else if activeRm.None? {
      r := Err(NoActiveYarnRM);
    } else {
      r := Ok(activeRm.value);
    }
  }

  /**
   * What one call of the request routine yields: the index of the active
   * ResourceManager with the application list (`None` for a null list), or
   * the exception it raises.
   */
  function RequestOutcome(s: RequestScript): (r: Result<(nat, Option<seq<RunningApp>>), Error>)
    ensures r.Ok? ==> r.value.0 < |s.probes|
  {
    match LocateIndex(s.probes)
    case Err(e) => Err(e)
    case Ok(k) =>
      match s.fetch
      case FetchTimeout => Err(ConnectTimeout)
      case FetchNon200 => Err(CannotGetClusterApps)
      case FetchOk(EmptyStats) => Err(StatsValueError)
      case FetchOk(AppsNull) => Ok((k, None))
      case FetchOk(AppsList(apps)) => Ok((k, Some(apps)))
  }

  /**
   * A request succeeds exactly when some host is active and the cluster-apps
   * reply is a 200 with a non-empty payload; a locator error is passed on as is.
   */
  lemma RequestOutcomeSpec(s: RequestScript)
    ensures RequestOutcome(s).Ok? <==>
      (exists j :: 0 <= j < |s.probes| && ReportsActive(s.probes[j])) &&
      s.fetch.FetchOk? && !s.fetch.stats.EmptyStats?
    ensures LocateIndex(s.probes).Err? ==> RequestOutcome(s) == Err(LocateIndex(s.probes).error)
    ensures RequestOutcome(s).Ok? ==> RequestOutcome(s).value.0 == LocateIndex(s.probes).value
  {
    LocateIndexSpec(s.probes);
  }

  /** The exceptions the cycle retries on: ValueError and both locator errors. */
  predicate Retryable(e: Error)
  {
    e.NoAvailableYarnRM? || e.NoActiveYarnRM? || e.StatsValueError?
  }

  /** A request that ends the retry loop: it succeeded or raised something not retried. */
  predicate Settles(s: RequestScript)
  {
    RequestOutcome(s).Ok? || !Retryable(RequestOutcome(s).error)
  }

  /** Locates the active ResourceManager and fetches its accepted and running applications. */
  method RequestYarn(hosts: seq<string>, s: RequestScript) returns (r: Result<(string, Option<seq<RunningApp>>), Error>)
    requires |s.probes| == |hosts|
    ensures RequestOutcome(s).Err? ==> r == Err(RequestOutcome(s).error)
    ensures RequestOutcome(s).Ok? ==>
      r == Ok((hosts[RequestOutcome(s).value.0], RequestOutcome(s).value.1))
  {
    var activeRm, _, _ := GetYarnActiveRm(hosts, s.probes);
    if activeRm.Err? {
      return Err(activeRm.error);
    }
    match s.fetch
    case FetchTimeout => r := Err(ConnectTimeout);
    case FetchNon200 => r := Err(CannotGetClusterApps);
    case FetchOk(stats) =>
      match stats
      case EmptyStats => r := Err(StatsValueError);
      case AppsNull => r := Ok((activeRm.value, None));
      case AppsList(apps) => r := Ok((activeRm.value, Some(apps)));
  }
}

=== FILE: model.dfy ===
/**
 * The data the watchdog works on: configured applications (desired state),
 * application instances reported by the YARN ResourceManager (actual state),
 * the observable effects of a cycle (alerts, checker calls, process launches)
 * and the exceptions that can escape it.
 */
module Model {
  import opened Wrappers
  import opened Seqs

  /** A JSON scalar, enough to tell the literal `false` apart from other values of `active`. */
  datatype JsonScalar = JBool(b: bool) | JNumber(n: int) | JString(s: string) | JNull

  /**
   * One entry of the `apps` list of the configuration document. Every key but
   * `app_name` may be absent (`None`). `checkOptions` is opaque to the core.
   */
  datatype AppConfig = AppConfig(
    name: string,
    appNum: Option<int>,
    startCmd: Option<string>,
    active: Option<JsonScalar>,
    checkType: Option<string>,
    checkOptions: Option<string>)

  /** One accepted or running application instance reported by the ResourceManager. */
  datatype RunningApp = RunningApp(name: string, id: string, state: string)

  /** The names of the configured entries. */
  function ConfiguredNames(configs: seq<AppConfig>): set<string>
  {
    set j | 0 <= j < |configs| :: configs[j].name
  }

  /** The names the ResourceManager reported. */
  function NamesOf(s: seq<RunningApp>): set<string>
  {
    set i | 0 <= i < |s| :: s[i].name
  }

  /**
   * What a cycle does to the outside world, in order: an alert handed to the
   * alert client, a call of the spark checker, or one attempt to launch a start command.
   */
  datatype Event =
    | Alert(severity: string, subject: string, object: string, content: string)
    | SparkCheck(instances: seq<RunningApp>, app: AppConfig, activeRm: string, nodeName: string)
    | SpawnAttempt(cmd: string)

  /** The exceptions of guardian.py that the model follows. */
  datatype Error =
    | NoAvailableYarnRM
    | NoActiveYarnRM
    | CannotGetClusterApps
    | StatsValueError      // ValueError('Cannot not get yarn application stats')
    | ConnectTimeout       // a timeout of the cluster-apps request, which nothing catches
    | KeyError(key: string)
    | IndexError

  const Subject := "Guardian"
  const RmFailureContent := "Failed to send request to yarn resource manager."
  const UnexpectedPrefix := "Unexpected running app number, expected/actual: "
  const WillRestartContent := "App is not running or less than expected number of running instance, will restart."
  const EscalationContent := "Failed to start yarn app after 3 times."

  /** Sent once when every attempt to reach the ResourceManager failed. */
  function RmFailureAlert(): Event
  {
    Alert("ERROR", Subject, "Yarn RM", RmFailureContent)
  }

  /** Sent when more instances run than expected. */
  function OverAlert(name: string, expected: int, actual: nat): Event
  {
    Alert("ERROR", Subject, name, UnexpectedPrefix + IntToDecimal(expected) + "/" + NatToDecimal(actual))
  }

  /** Sent before an application is restarted. */
  function WillRestartAlert(name: string): Event
  {
    Alert("ERROR", Subject, name, WillRestartContent)
  }

  /** Sent after three failed launch attempts. */
  function EscalationAlert(name: string): Event
  {
    Alert("ERROR", Subject, name, EscalationContent)
  }

  predicate IsOverAlert(e: Event)
  {
    e.Alert? && UnexpectedPrefix <= e.content
  }

  predicate IsSpawnAttempt(e: Event)
  {
    e.SpawnAttempt?
  }

  predicate IsSparkCheck(e: Event)
  {
    e.SparkCheck?
  }

  predicate IsWillRestart(e: Event)
  {
    e.Alert? && e.content == WillRestartContent
  }

  predicate IsEscalation(e: Event)
  {
    e.Alert? && e.content == EscalationContent
  }
}

=== FILE: reconcile.dfy ===
/**
 * One reconciliation cycle: reach the ResourceManager with up to three
 * attempts, group the running instances by name, compare each configured
 * application's expected instance count with the actual one, call the spark
 * checker where the counts agree, and hand the under-provisioned names to
 * remediation.
 */
module Reconcile {
  import opened Wrappers
  import opened Seqs
  import opened Model
  import opened Locator
  import opened Remediation

  const RequestAttempts := 3

  /** One request script per attempt, each with one probe per host. */
  predicate ScriptsFit(hosts: seq<string>, scripts: seq<RequestScript>)
  {
    |scripts| == RequestAttempts && forall i :: 0 <= i < |scripts| ==> |scripts[i].probes| == |hosts|
  }

  // ---------------------------------------------------------------------------
  // Grouping the running instances by name

  /** The instances with name `n`, in report order. */
  function WithName(s: seq<RunningApp>, n: string): (r: seq<RunningApp>)
    ensures |r| <= |s|
  {
    if s == [] then []
    else
      var last := s[|s| - 1];
      WithName(s[..|s| - 1], n) + (if last.name == n then [last] else [])
  }

  /** The instances grouped by name: one group per reported name. */
  function Group(s: seq<RunningApp>): map<string, seq<RunningApp>>
  {
    map n | n in NamesOf(s) :: WithName(s, n)
  }

  /** The group of a name; a name nobody reported has no instances. */
  function Lookup(groups: map<string, seq<RunningApp>>, n: string): seq<RunningApp>
  {
    if n in groups then groups[n] else []
  }

  /** A group holds exactly the reported instances with its name. */
  lemma {:induction false} WithNameMembers(s: seq<RunningApp>, n: string)
    ensures forall x :: x in WithName(s, n) <==> x in s && x.name == n
  {
    if s != [] {
      var init := s[..|s| - 1];
      WithNameMembers(init, n);
      assert s == init + [s[|s| - 1]];
    }
  }

  /** Looking a name up in the grouping yields its instances, and none for an unreported name. */
  lemma LookupGroup(s: seq<RunningApp>, n: string)
    ensures Lookup(Group(s), n) == WithName(s, n)
    ensures n !in NamesOf(s) ==> Lookup(Group(s), n) == []
  {
    WithNameMembers(s, n);
    if n !in NamesOf(s) {
      forall x | x in s
        ensures x.name != n
      {
        var i :| 0 <= i < |s| && s[i] == x;
        assert s[i].name in NamesOf(s);
      }
    }
  }

  /** Reporting one more instance adds its name to the reported names. */
  lemma NamesSnoc(s: seq<RunningApp>, x: RunningApp)
    ensures NamesOf(s + [x]) == NamesOf(s) + {x.name}
  {
    var s' := s + [x];
    forall n | n in NamesOf(s') ensures n in NamesOf(s) + {x.name} {
      var i :| 0 <= i < |s'| && s'[i].name == n;
      if i < |s| { assert s[i] == s'[i]; }
    }
    forall n | n in NamesOf(s) ensures n in NamesOf(s') {
      var i :| 0 <= i < |s| && s[i].name == n;
      assert s'[i] == s[i];
    }
    assert s'[|s|] == x;
  }

  /** Reporting one more instance appends it to its name's group. */
  lemma GroupStep(s: seq<RunningApp>, x: RunningApp)
    ensures Group(s + [x]) == Group(s)[x.name := Lookup(Group(s), x.name) + [x]]
  {
    var s' := s + [x];
    assert s'[..|s'| - 1] == s;
    NamesSnoc(s, x);
    LookupGroup(s, x.name);
    var lhs := Group(s');
    var rhs := Group(s)[x.name := Lookup(Group(s), x.name) + [x]];
    assert lhs.Keys == rhs.Keys;
    forall n | n in lhs
      ensures lhs[n] == rhs[n]
    {
      assert WithName(s', n) == WithName(s, n) + (if x.name == n then [x] else []);
    }
  }

  /** The sum of the group sizes. */
  ghost function TotalSize(m: map<string, seq<RunningApp>>): nat
    decreases m.Keys
  {
    if m == map[] then 0
    else
      var k :| k in m;
      |m[k]| + TotalSize(m - {k})
  }

  lemma TotalSizeRemove(m: map<string, seq<RunningApp>>, k: string)
    requires k in m
    ensures TotalSize(m) == |m[k]| + TotalSize(m - {k})
    decreases m.Keys
  {
    var k' :| k' in m && TotalSize(m) == |m[k']| + TotalSize(m - {k'});
    if k' != k {
      TotalSizeRemove(m - {k'}, k);
      TotalSizeRemove(m - {k}, k');
      assert (m - {k'}) - {k} == (m - {k}) - {k'};
    }
  }

  /** Replacing one group changes the total by the difference in that group's size. */
  lemma TotalSizeUpdate(g: map<string, seq<RunningApp>>, k: string, v: seq<RunningApp>)
    ensures TotalSize(g[k := v]) + |Lookup(g, k)| == TotalSize(g) + |v|
  {
    var g' := g[k := v];
    TotalSizeRemove(g', k);
    if k in g {
      assert g' - {k} == g - {k};
      TotalSizeRemove(g, k);
    } else {
      assert g' - {k} == g;
    }
  }

  /** Every reported instance lands in exactly one group: the group sizes add up to the number of instances. */
  lemma {:induction false} GroupTotal(s: seq<RunningApp>)
    ensures TotalSize(Group(s)) == |s|
  {
    if s == [] {
      assert Group(s) == map[];
    } else {
      var init := s[..|s| - 1];
      var x := s[|s| - 1];
      assert s == init + [x];
      GroupTotal(init);
      GroupStep(init, x);
      var g := Group(init);
      TotalSizeUpdate(g, x.name, Lookup(g, x.name) + [x]);
    }
  }

  /** Builds the name-to-instances map of the reported applications, in report order. */
  method GroupByName(running: seq<RunningApp>) returns (appMap: map<string, seq<RunningApp>>)
    ensures appMap == Group(running)
  {
    appMap := map[];
    var i := 0;
    while i < |running|
      invariant 0 <= i <= |running|
      invariant appMap == Group(running[..i])
    {
      var app := running[i];
      var key := app.name;
      if key !in appMap {
        appMap := appMap[key := []];
      }
      GroupStep(running[..i], app);
      assert running[..i + 1] == running[..i] + [app];
      appMap := appMap[key := appMap[key] + [app]];
      i := i + 1;
    }
    assert running[..|running|] == running;
  }

  // ---------------------------------------------------------------------------
  // Expected against actual

  /** The expected instance count: `app_num`, 1 when absent. */
  function Expected(a: AppConfig): int
  {
    if a.appNum.Some? then a.appNum.value else 1
  }

  /** Both checker keys are present and the type is "spark". */
  predicate SparkConfigured(a: AppConfig)
  {
    a.checkType.Some? && a.checkOptions.Some? && a.checkType.value == "spark"
  }

  predicate Under(a: AppConfig, groups: map<string, seq<RunningApp>>)
  {
    |Lookup(groups, a.name)| < Expected(a)
  }

  predicate Over(a: AppConfig, groups: map<string, seq<RunningApp>>)
  {
    |Lookup(groups, a.name)| > Expected(a)
  }

  predicate CheckedBySpark(a: AppConfig, groups: map<string, seq<RunningApp>>)
  {
    |Lookup(groups, a.name)| == Expected(a) && SparkConfigured(a)
  }

  /** The effects of comparing the configured applications, and the names to restart. */
  datatype DiffResult = DiffResult(events: seq<Event>, notRunning: seq<string>)

  /** The comparison for one configured application. */
  function DiffStep(a: AppConfig, groups: map<string, seq<RunningApp>>, activeRm: string, nodeName: string): DiffResult
  {
    var instances := Lookup(groups, a.name);
    if |instances| < Expected(a) then DiffResult([], [a.name])
    else if |instances| > Expected(a) then DiffResult([OverAlert(a.name, Expected(a), |instances|)], [])
    else if SparkConfigured(a) then DiffResult([SparkCheck(instances, a, activeRm, nodeName)], [])
    else DiffResult([], [])
  }

  /** The comparison for every configured application, in configuration order. */
  function Diff(apps: seq<AppConfig>, groups: map<string, seq<RunningApp>>, activeRm: string, nodeName: string): (d: DiffResult)
    ensures |d.notRunning| <= |apps|
  {
    if apps == [] then DiffResult([], [])
    else
      var d := Diff(apps[..|apps| - 1], groups, activeRm, nodeName);
      var step := DiffStep(apps[|apps| - 1], groups, activeRm, nodeName);
      DiffResult(d.events + step.events, d.notRunning + step.notRunning)
  }

  /** Comparing one more entry appends its effects and its restart entry. */
  lemma DiffSnoc(apps: seq<AppConfig>, i: nat, groups: map<string, seq<RunningApp>>, activeRm: string, nodeName: string)
    requires i < |apps|
    ensures var d := Diff(apps[..i], groups, activeRm, nodeName);
      var step := DiffStep(apps[i], groups, activeRm, nodeName);
      Diff(apps[..i + 1], groups, activeRm, nodeName) == DiffResult(d.events + step.events, d.notRunning + step.notRunning)
  {
    assert apps[..i + 1][..i] == apps[..i];
  }

  /** A name is to be restarted exactly when some configured entry with that name runs too few instances. */
  lemma {:induction false} DiffNotRunning(apps: seq<AppConfig>, groups: map<string, seq<RunningApp>>, activeRm: string, nodeName: string)
    ensures forall n :: n in Diff(apps, groups, activeRm, nodeName).notRunning <==>
      exists i :: 0 <= i < |apps| && apps[i].name == n && Under(apps[i], groups)
  {
    if apps != [] {
      var init := apps[..|apps| - 1];
      DiffNotRunning(init, groups, activeRm, nodeName);
      assert forall i :: 0 <= i < |init| ==> init[i] == apps[i];
    }
  }

  /** One restart entry per under-provisioned entry, duplicates kept. */
  lemma {:induction false} DiffRestartCount(apps: seq<AppConfig>, groups: map<string, seq<RunningApp>>, activeRm: string, nodeName: string)
    ensures |Diff(apps, groups, activeRm, nodeName).notRunning| == CountIf(apps, (a: AppConfig) => Under(a, groups))
  {
    if apps != [] {
      DiffRestartCount(apps[..|apps| - 1], groups, activeRm, nodeName);
    }
  }

  /** The comparison of one entry emits at most one effect, of the kind its counts call for. */
  lemma DiffStepCounts(a: AppConfig, groups: map<string, seq<RunningApp>>, activeRm: string, nodeName: string)
    ensures CountIf(DiffStep(a, groups, activeRm, nodeName).events, IsOverAlert) == if Over(a, groups) then 1 else 0
    ensures CountIf(DiffStep(a, groups, activeRm, nodeName).events, IsSparkCheck) == if CheckedBySpark(a, groups) then 1 else 0
  {
    var events := DiffStep(a, groups, activeRm, nodeName).events;
    if events != [] {
      assert events == [] + [events[0]];
      if Over(a, groups) {
        assert UnexpectedPrefix <= events[0].content;
      }
    }
  }

  /** Exactly one "unexpected number" alert per over-provisioned entry. */
  lemma {:induction false} DiffOverAlertCount(apps: seq<AppConfig>, groups: map<string, seq<RunningApp>>, activeRm: string, nodeName: string)
    ensures CountIf(Diff(apps, groups, activeRm, nodeName).events, IsOverAlert) == CountIf(apps, (a: AppConfig) => Over(a, groups))
  {
    if apps != [] {
      var init := apps[..|apps| - 1];
      var a := apps[|apps| - 1];
      DiffOverAlertCount(init, groups, activeRm, nodeName);
      var d := Diff(init, groups, activeRm, nodeName);
      var step := DiffStep(a, groups, activeRm, nodeName);
      CountIfAppend(d.events, step.events, IsOverAlert);
      DiffStepCounts(a, groups, activeRm, nodeName);
    }
  }

  /** Exactly one checker call per spark entry whose count is right. */
  lemma {:induction false} DiffSparkCount(apps: seq<AppConfig>, groups: map<string, seq<RunningApp>>, activeRm: string, nodeName: string)
    ensures CountIf(Diff(apps, groups, activeRm, nodeName).events, IsSparkCheck)
      == CountIf(apps, (a: AppConfig) => CheckedBySpark(a, groups))
  {
    if apps != [] {
      var init := apps[..|apps| - 1];
      var a := apps[|apps| - 1];
      DiffSparkCount(init, groups, activeRm, nodeName);
      var d := Diff(init, groups, activeRm, nodeName);
      var step := DiffStep(a, groups, activeRm, nodeName);
      CountIfAppend(d.events, step.events, IsSparkCheck);
      DiffStepCounts(a, groups, activeRm, nodeName);
    }
  }

  /**
   * The spark checker is only called for a configured spark entry whose
   * count is right, with that name's instances and the active ResourceManager.
   */
  lemma {:induction false} DiffSparkChecks(apps: seq<AppConfig>, groups: map<string, seq<RunningApp>>, activeRm: string, nodeName: string)
    ensures forall e :: e in Diff(apps, groups, activeRm, nodeName).events && e.SparkCheck? ==>
      && e.app in apps && CheckedBySpark(e.app, groups)
      && e.instances == Lookup(groups, e.app.name)
      && e.activeRm == activeRm && e.nodeName == nodeName
  {
    if apps != [] {
      DiffSparkChecks(apps[..|apps| - 1], groups, activeRm, nodeName);
      assert apps == apps[..|apps| - 1] + [apps[|apps| - 1]];
    }
  }

  /**
   * Every alert of the comparison belongs to a configured, over-provisioned
   * entry: it names that entry and reports its expected and actual counts.
   */
  lemma {:induction false} DiffOverAlerts(apps: seq<AppConfig>, groups: map<string, seq<RunningApp>>, activeRm: string, nodeName: string)
    ensures forall e :: e in Diff(apps, groups, activeRm, nodeName).events && e.Alert? ==>
      exists a :: a in apps && Over(a, groups) && e == OverAlert(a.name, Expected(a), |Lookup(groups, a.name)|)
  {
    if apps != [] {
      DiffOverAlerts(apps[..|apps| - 1], groups, activeRm, nodeName);
      assert apps == apps[..|apps| - 1] + [apps[|apps| - 1]];
    }
  }

  /** Every effect of the comparison is an "unexpected number" alert or a checker call. */
  lemma {:induction false} DiffEventKinds(apps: seq<AppConfig>, groups: map<string, seq<RunningApp>>, activeRm: string, nodeName: string)
    ensures forall e :: e in Diff(apps, groups, activeRm, nodeName).events ==>
      e.SparkCheck? || (IsOverAlert(e) && |e.content| > |UnexpectedPrefix|)
  {
    if apps != [] {
      DiffEventKinds(apps[..|apps| - 1], groups, activeRm, nodeName);
      var a := apps[|apps| - 1];
      if Over(a, groups) {
        assert UnexpectedPrefix <= OverAlert(a.name, Expected(a), |Lookup(groups, a.name)|).content;
      }
    }
  }

  /**
   * The comparison for one entry as guardian.py writes it: the alert for an
   * over-provisioned entry reads `app_num` again, so it raises KeyError when
   * the entry has no `app_num`.
   */
  function DiffStepAsWritten(a: AppConfig, groups: map<string, seq<RunningApp>>, activeRm: string, nodeName: string): Result<DiffResult, Error>
  {
    var instances := Lookup(groups, a.name);
    if |instances| < Expected(a) then Ok(DiffResult([], [a.name]))
    else if |instances| > Expected(a) then
      if a.appNum.None? then Err(KeyError("app_num"))
      else Ok(DiffResult([OverAlert(a.name, a.appNum.value, |instances|)], []))
    else if SparkConfigured(a) then Ok(DiffResult([SparkCheck(instances, a, activeRm, nodeName)], []))
    else Ok(DiffResult([], []))
  }

  /** An entry without `app_num` that runs two or more instances: the one case where the code as written raises. */
  predicate RaisesAsWritten(a: AppConfig, groups: map<string, seq<RunningApp>>)
  {
    a.appNum.None? && |Lookup(groups, a.name)| >= 2
  }

  /**
   * The code as written agrees with the corrected step except for an entry
   * without `app_num` that runs two or more instances, where it raises.
   */
  lemma DiffStepAsWrittenRaises(a: AppConfig, groups: map<string, seq<RunningApp>>, activeRm: string, nodeName: string)
    ensures DiffStepAsWritten(a, groups, activeRm, nodeName).Err? <==> RaisesAsWritten(a, groups)
    ensures DiffStepAsWritten(a, groups, activeRm, nodeName).Ok? ==>
      DiffStepAsWritten(a, groups, activeRm, nodeName).value == DiffStep(a, groups, activeRm, nodeName)
  {
  }

  /** A concrete case: "etl" without `app_num`, running twice. */
  lemma AppNumKeyErrorExample()
    ensures var etl := AppConfig("etl", None, Some("run-etl"), None, None, None);
      var groups := map["etl" := [RunningApp("etl", "application_1", "RUNNING"), RunningApp("etl", "application_2", "RUNNING")]];
      && DiffStepAsWritten(etl, groups, "rm1:8088", "my_guardian") == Err(KeyError("app_num"))
      && DiffStep(etl, groups, "rm1:8088", "my_guardian").events == [OverAlert("etl", 1, 2)]
  {
  }

  /** The comparison loop as written: what it did before an exception stopped it, and that exception. */
  datatype DiffOutcome = DiffOutcome(done: DiffResult, raised: Option<Error>)

  /**
   * The comparison loop with the step as written: the entries are compared in
   * order until one raises; the effects of the entries before it have happened.
   */
  function DiffAsWritten(apps: seq<AppConfig>, groups: map<string, seq<RunningApp>>, activeRm: string, nodeName: string): (o: DiffOutcome)
    ensures |o.done.notRunning| <= |apps|
    ensures o.raised.Some? ==> o.raised == Some(KeyError("app_num"))
  {
    if apps == [] then DiffOutcome(DiffResult([], []), None)
    else
      var o := DiffAsWritten(apps[..|apps| - 1], groups, activeRm, nodeName);
      if o.raised.Some? then o
      else match DiffStepAsWritten(apps[|apps| - 1], groups, activeRm, nodeName)
        case Err(e) => DiffOutcome(o.done, Some(e))
        case Ok(step) => DiffOutcome(DiffResult(o.done.events + step.events, o.done.notRunning + step.notRunning), None)
  }

  /**
   * The loop as written finishes, with the corrected result, exactly when no
   * entry lacks `app_num` while running two or more instances.
   */
  lemma {:induction false} DiffAsWrittenSpec(apps: seq<AppConfig>, groups: map<string, seq<RunningApp>>, activeRm: string, nodeName: string)
    ensures var o := DiffAsWritten(apps, groups, activeRm, nodeName);
      && (o.raised.None? <==> forall i :: 0 <= i < |apps| ==> !RaisesAsWritten(apps[i], groups))
      && (o.raised.None? ==> o.done == Diff(apps, groups, activeRm, nodeName))
  {
    if apps != [] {
      var n := |apps| - 1;
      var init := apps[..n];
      var a := apps[n];
      assert apps[..n] == init;
      assert forall i :: 0 <= i < n ==> init[i] == apps[i];
      DiffAsWrittenSpec(init, groups, activeRm, nodeName);
      DiffStepAsWrittenRaises(a, groups, activeRm, nodeName);
    }
  }

  /**
   * Otherwise the loop as written raises KeyError at the first such entry,
   * `apps[k]`: the effects of the entries before it have happened and no
   * entry after it is compared.
   */
  lemma {:induction false} DiffAsWrittenStops(apps: seq<AppConfig>, groups: map<string, seq<RunningApp>>, activeRm: string, nodeName: string, k: nat)
    requires k < |apps| && RaisesAsWritten(apps[k], groups)
    requires forall i :: 0 <= i < k ==> !RaisesAsWritten(apps[i], groups)
    ensures DiffAsWritten(apps, groups, activeRm, nodeName) ==
      DiffOutcome(Diff(apps[..k], groups, activeRm, nodeName), Some(KeyError("app_num")))
  {
    var n := |apps| - 1;
    var init := apps[..n];
    assert apps[..n] == init;
    if k < n {
      assert init[..k] == apps[..k];
      assert forall i :: 0 <= i <= k ==> init[i] == apps[i];
      DiffAsWrittenStops(init, groups, activeRm, nodeName, k);
      DiffAsWrittenKeepsRaise(apps, groups, activeRm, nodeName);
    } else {
      DiffAsWrittenLastRaises(apps, groups, activeRm, nodeName);
    }
  }

  /** An exception raised by an earlier entry ends the loop as written. */
  lemma DiffAsWrittenKeepsRaise(apps: seq<AppConfig>, groups: map<string, seq<RunningApp>>, activeRm: string, nodeName: string)
    requires apps != [] && DiffAsWritten(apps[..|apps| - 1], groups, activeRm, nodeName).raised.Some?
    ensures DiffAsWritten(apps, groups, activeRm, nodeName) == DiffAsWritten(apps[..|apps| - 1], groups, activeRm, nodeName)
  {
  }

  /** When only the last entry raises, the loop as written stops there with the corrected effects of the others. */
  lemma DiffAsWrittenLastRaises(apps: seq<AppConfig>, groups: map<string, seq<RunningApp>>, activeRm: string, nodeName: string)
    requires apps != [] && RaisesAsWritten(apps[|apps| - 1], groups)
    requires forall i :: 0 <= i < |apps| - 1 ==> !RaisesAsWritten(apps[i], groups)
    ensures DiffAsWritten(apps, groups, activeRm, nodeName) ==
      DiffOutcome(Diff(apps[..|apps| - 1], groups, activeRm, nodeName), Some(KeyError("app_num")))
  {
    var init := apps[..|apps| - 1];
    assert forall i :: 0 <= i < |init| ==> init[i] == apps[i];
    DiffAsWrittenSpec(init, groups, activeRm, nodeName);
    DiffStepAsWrittenRaises(apps[|apps| - 1], groups, activeRm, nodeName);
  }

  // ---------------------------------------------------------------------------
  // The cycle

  /** What a cycle did: how many requests it made, its effects in order, and the exception that escaped it. */
  datatype CycleResult = CycleResult(requests: nat, events: seq<Event>, raised: Option<Error>)

  function RunningOf(apps: Option<seq<RunningApp>>): seq<RunningApp>
  {
    if apps.None? then [] else apps.value
  }

  /** The cycle as a function of the configuration and the scripted outcomes. */
  function Cycle(hosts: seq<string>, nodeName: string, apps: seq<AppConfig>,
                 scripts: seq<RequestScript>, spawns: seq<seq<SpawnOutcome>>): (r: CycleResult)
    requires ScriptsFit(hosts, scripts) && SpawnsFit(spawns, |apps|)
    ensures 1 <= r.requests <= RequestAttempts
  {
    var k := FirstIndex(scripts, Settles);
    if k == |scripts| then CycleResult(RequestAttempts, [RmFailureAlert()], None)
    else
      match RequestOutcome(scripts[k])
      case Err(e) => CycleResult(k + 1, [], Some(e))
      case Ok((idx, running)) =>
        var d := Diff(apps, Group(RunningOf(running)), hosts[idx], nodeName);
        if d.notRunning == [] then CycleResult(k + 1, d.events, None)
        else
          var t := Remediate(d.notRunning, apps, spawns);
          CycleResult(k + 1, d.events + t.events, t.raised)
  }

  /** The cycle once attempt `k` has fetched the application list. */
  lemma CycleAfterFetch(hosts: seq<string>, nodeName: string, apps: seq<AppConfig>,
                        scripts: seq<RequestScript>, spawns: seq<seq<SpawnOutcome>>, k: nat)
    requires ScriptsFit(hosts, scripts) && SpawnsFit(spawns, |apps|)
    requires k < RequestAttempts && FirstIndex(scripts, Settles) == k && RequestOutcome(scripts[k]).Ok?
    ensures var o := RequestOutcome(scripts[k]).value;
      var d := Diff(apps, Group(RunningOf(o.1)), hosts[o.0], nodeName);
      Cycle(hosts, nodeName, apps, scripts, spawns) ==
        if d.notRunning == [] then CycleResult(k + 1, d.events, None)
        else CycleResult(k + 1, d.events + Remediate(d.notRunning, apps, spawns).events,
                         Remediate(d.notRunning, apps, spawns).raised)
  {
  }

  /**
   * The ResourceManager alert is sent exactly when all three requests failed
   * with a retried exception, and then it is the only effect of the cycle:
   * no entry is compared and nothing is restarted.
   */
  lemma CycleRmFailure(hosts: seq<string>, nodeName: string, apps: seq<AppConfig>,
                       scripts: seq<RequestScript>, spawns: seq<seq<SpawnOutcome>>)
    requires ScriptsFit(hosts, scripts) && SpawnsFit(spawns, |apps|)
    ensures var r := Cycle(hosts, nodeName, apps, scripts, spawns);
      RmFailureAlert() in r.events <==> forall j :: 0 <= j < RequestAttempts ==> !Settles(scripts[j])
    ensures (forall j :: 0 <= j < RequestAttempts ==> !Settles(scripts[j])) ==>
      Cycle(hosts, nodeName, apps, scripts, spawns) == CycleResult(RequestAttempts, [RmFailureAlert()], None)
  {
    var k := FirstIndex(scripts, Settles);
    if k < |scripts| && RequestOutcome(scripts[k]).Ok? {
      var idx := RequestOutcome(scripts[k]).value.0;
      var running := RequestOutcome(scripts[k]).value.1;
      var d := Diff(apps, Group(RunningOf(running)), hosts[idx], nodeName);
      DiffEventKinds(apps, Group(RunningOf(running)), hosts[idx], nodeName);
      assert |RmFailureContent| == |UnexpectedPrefix|;
      assert RmFailureAlert() !in d.events;
      if d.notRunning != [] {
        RemediateEventKinds(d.notRunning, apps, spawns);
        assert |RmFailureContent| != |WillRestartContent| && |RmFailureContent| != |EscalationContent|;
      }
    }
  }

  /**
   * CannotGetClusterApps and a timeout of the cluster-apps request are not
   * retried: the cycle ends at once with that exception and no effect.
   */
  lemma CycleUncaught(hosts: seq<string>, nodeName: string, apps: seq<AppConfig>,
                      scripts: seq<RequestScript>, spawns: seq<seq<SpawnOutcome>>, k: nat)
    requires ScriptsFit(hosts, scripts) && SpawnsFit(spawns, |apps|)
    requires k < RequestAttempts && RequestOutcome(scripts[k]).Err? && !Retryable(RequestOutcome(scripts[k]).error)
    requires forall j :: 0 <= j < k ==> !Settles(scripts[j])
    ensures var r := Cycle(hosts, nodeName, apps, scripts, spawns);
      && r == CycleResult(k + 1, [], Some(RequestOutcome(scripts[k]).error))
      && r.raised.value in {CannotGetClusterApps, ConnectTimeout}
  {
    assert FirstIndex(scripts, Settles) == k;
    LocateIndexSpec(scripts[k].probes);
  }

  /** The names handed to remediation come from the configuration, so the start-command lookup never raises IndexError. */
  lemma CycleNoIndexError(hosts: seq<string>, nodeName: string, apps: seq<AppConfig>,
                          scripts: seq<RequestScript>, spawns: seq<seq<SpawnOutcome>>)
    requires ScriptsFit(hosts, scripts) && SpawnsFit(spawns, |apps|)
    ensures Cycle(hosts, nodeName, apps, scripts, spawns).raised != Some(IndexError)
  {
    var k := FirstIndex(scripts, Settles);
    if k < |scripts| && RequestOutcome(scripts[k]).Ok? {
      var idx := RequestOutcome(scripts[k]).value.0;
      var groups := Group(RunningOf(RequestOutcome(scripts[k]).value.1));
      var d := Diff(apps, groups, hosts[idx], nodeName);
      if d.notRunning != [] {
        DiffNotRunning(apps, groups, hosts[idx], nodeName);
        forall n | n in d.notRunning
          ensures n in ConfiguredNames(apps)
        {
          var i :| 0 <= i < |apps| && apps[i].name == n && Under(apps[i], groups);
        }
        RemediateConfiguredNames(d.notRunning, apps, spawns);
      }
    }
  }

  /**
   * The cycle as guardian.py writes it: the same requests as `Cycle`, but the
   * comparison loop as written, whose KeyError escapes the cycle before any
   * name is restarted.
   */
  function CycleAsWritten(hosts: seq<string>, nodeName: string, apps: seq<AppConfig>,
                          scripts: seq<RequestScript>, spawns: seq<seq<SpawnOutcome>>): (r: CycleResult)
    requires ScriptsFit(hosts, scripts) && SpawnsFit(spawns, |apps|)
  {
    var k := FirstIndex(scripts, Settles);
    if k == |scripts| then CycleResult(RequestAttempts, [RmFailureAlert()], None)
    else
      match RequestOutcome(scripts[k])
      case Err(e) => CycleResult(k + 1, [], Some(e))
      case Ok((idx, running)) =>
        var o := DiffAsWritten(apps, Group(RunningOf(running)), hosts[idx], nodeName);
        if o.raised.Some? then CycleResult(k + 1, o.done.events, o.raised)
        else if o.done.notRunning == [] then CycleResult(k + 1, o.done.events, None)
        else
          var t := Remediate(o.done.notRunning, apps, spawns);
          CycleResult(k + 1, o.done.events + t.events, t.raised)
  }

  /**
   * Once attempt `k` has fetched the application list, the cycle as written
   * agrees with `Cycle` unless an entry without `app_num` runs two or more
   * instances. At the first such entry it ends with KeyError: its effects are
   * those of the entries before it, and nothing is restarted.
   */
  lemma CycleAsWrittenSpec(hosts: seq<string>, nodeName: string, apps: seq<AppConfig>,
                           scripts: seq<RequestScript>, spawns: seq<seq<SpawnOutcome>>, k: nat)
    requires ScriptsFit(hosts, scripts) && SpawnsFit(spawns, |apps|)
    requires k < RequestAttempts && FirstIndex(scripts, Settles) == k && RequestOutcome(scripts[k]).Ok?
    ensures var o := RequestOutcome(scripts[k]).value;
      var groups := Group(RunningOf(o.1));
      && ((forall i :: 0 <= i < |apps| ==> !RaisesAsWritten(apps[i], groups)) ==>
            CycleAsWritten(hosts, nodeName, apps, scripts, spawns) == Cycle(hosts, nodeName, apps, scripts, spawns))
      && (forall j ::
            (0 <= j < |apps| && RaisesAsWritten(apps[j], groups) && forall i :: 0 <= i < j ==> !RaisesAsWritten(apps[i], groups)) ==>
            CycleAsWritten(hosts, nodeName, apps, scripts, spawns) ==
              CycleResult(k + 1, Diff(apps[..j], groups, hosts[o.0], nodeName).events, Some(KeyError("app_num"))))
  {
    var o := RequestOutcome(scripts[k]).value;
    var groups := Group(RunningOf(o.1));
    DiffAsWrittenSpec(apps, groups, hosts[o.0], nodeName);
    forall j | 0 <= j < |apps| && RaisesAsWritten(apps[j], groups) && forall i :: 0 <= i < j ==> !RaisesAsWritten(apps[i], groups)
      ensures CycleAsWritten(hosts, nodeName, apps, scripts, spawns) ==
        CycleResult(k + 1, Diff(apps[..j], groups, hosts[o.0], nodeName).events, Some(KeyError("app_num")))
    {
      DiffAsWrittenStops(apps, groups, hosts[o.0], nodeName, j);
    }
  }

  /** Before the application list is fetched, the cycle as written and `Cycle` agree. */
  lemma CycleAsWrittenUnfetched(hosts: seq<string>, nodeName: string, apps: seq<AppConfig>,
                                scripts: seq<RequestScript>, spawns: seq<seq<SpawnOutcome>>)
    requires ScriptsFit(hosts, scripts) && SpawnsFit(spawns, |apps|)
    requires var k := FirstIndex(scripts, Settles); k == |scripts| || RequestOutcome(scripts[k]).Err?
    ensures CycleAsWritten(hosts, nodeName, apps, scripts, spawns) == Cycle(hosts, nodeName, apps, scripts, spawns)
  {
  }

  /**
   * The retry loop of a cycle: requests until one succeeds or raises an
   * error that is not retried, at most three times. `retry` ends as the
   * index of the attempt that settled, or three when none did.
   */
  method RequestWithRetry(hosts: seq<string>, scripts: seq<RequestScript>)
    returns (retry: nat, reply: Result<(string, Option<seq<RunningApp>>), Error>)
    requires ScriptsFit(hosts, scripts)
    ensures retry == FirstIndex(scripts, Settles)
    ensures retry < RequestAttempts && RequestOutcome(scripts[retry]).Err? ==>
      reply == Err(RequestOutcome(scripts[retry]).error)
    ensures retry < RequestAttempts && RequestOutcome(scripts[retry]).Ok? ==>
      reply == Ok((hosts[RequestOutcome(scripts[retry]).value.0], RequestOutcome(scripts[retry]).value.1))
  {
    reply := Err(NoActiveYarnRM);
    retry := 0;
    while retry < RequestAttempts
      invariant 0 <= retry <= RequestAttempts
      invariant forall j :: 0 <= j < retry ==> !Settles(scripts[j])
    {
      reply := RequestYarn(hosts, scripts[retry]);
      if reply.Ok? || !Retryable(reply.error) {
        return;
      }
      retry := retry + 1;
    }
  }

  /**
   * The comparison loop of a cycle: for each configured application in
   * order, queue it for restart, send the "expected/actual" alert, or call
   * the spark checker.
   */
  method CompareApps(apps: seq<AppConfig>, appMap: map<string, seq<RunningApp>>, yarnActiveRm: string, nodeName: string)
    returns (events: seq<Event>, notRunning: seq<string>)
    ensures DiffResult(events, notRunning) == Diff(apps, appMap, yarnActiveRm, nodeName)
  {
    events := [];
    notRunning := [];
    var i := 0;
    while i < |apps|
      invariant 0 <= i <= |apps|
      invariant DiffResult(events, notRunning) == Diff(apps[..i], appMap, yarnActiveRm, nodeName)
    {
      DiffSnoc(apps, i, appMap, yarnActiveRm, nodeName);
      ghost var step := DiffStep(apps[i], appMap, yarnActiveRm, nodeName);
      ghost var before := DiffResult(events, notRunning);
      var appConfig := apps[i];
      var instances := Lookup(appMap, appConfig.name);
      var actual := |instances|;
      var expected := 1;
      if appConfig.appNum.Some? {
        expected := appConfig.appNum.value;
      }
      assert expected == Expected(appConfig) && instances == Lookup(appMap, apps[i].name);
      if actual < expected {
        notRunning := notRunning + [appConfig.name];
      } else if actual > expected {
        events := events + [OverAlert(appConfig.name, expected, actual)];
      } else if appConfig.checkType.Some? && appConfig.checkOptions.Some? {
        if appConfig.checkType.value == "spark" {
          events := events + [SparkCheck(instances, appConfig, yarnActiveRm, nodeName)];
        }
      }
      assert events == before.events + step.events && notRunning == before.notRunning + step.notRunning;
      i := i + 1;
    }
    assert apps[..|apps|] == apps;
  }

  /**
   * One cycle: up to three attempts to reach the ResourceManager (one alert
   * and an early return when all fail), grouping of the running instances,
   * the per-entry comparison, and remediation of the under-provisioned names.
   */
  method CheckImpl(hosts: seq<string>, nodeName: string, apps: seq<AppConfig>,
                   scripts: seq<RequestScript>, spawns: seq<seq<SpawnOutcome>>) returns (res: CycleResult)
    requires ScriptsFit(hosts, scripts) && SpawnsFit(spawns, |apps|)
    ensures res == Cycle(hosts, nodeName, apps, scripts, spawns)
    ensures 1 <= res.requests <= RequestAttempts
  {
    var retry, reply := RequestWithRetry(hosts, scripts);
    if retry >= RequestAttempts {
      return CycleResult(RequestAttempts, [RmFailureAlert()], None);
    }
    if reply.Err? {
      return CycleResult(retry + 1, [], Some(reply.error));
    }
    var yarnActiveRm := reply.value.0;
    var running := RunningOf(reply.value.1);
    var appMap := GroupByName(running);
    var events, notRunning := CompareApps(apps, appMap, yarnActiveRm, nodeName);
    CycleAfterFetch(hosts, nodeName, apps, scripts, spawns, retry);

    if |notRunning| == 0 {
      return CycleResult(retry + 1, events, None);
    }
    var t := AlertNotRunningApps(notRunning, apps, spawns);
    res := CycleResult(retry + 1, events + t.events, t.raised);
  }
}

=== FILE: remediate.dfy ===
/**
 * Restarting applications that run fewer instances than expected: per name,
 * a "will restart" alert, up to three launch attempts of the configured start
 * command, and one escalation alert when all three fail.
 */
module Remediation {
  import opened Wrappers
  import opened Seqs
  import opened Model

  const SpawnAttempts := 3

  /** The outcome of one launch: the command could not be started, or it ran and its error output was or was not present. */
  datatype SpawnOutcome = LaunchError | Finished(errPresent: bool)

  predicate Started(o: SpawnOutcome)
  {
    o.Finished? && !o.errPresent
  }

  /** Every scripted attempt failed. */
  predicate AllFailed(os: seq<SpawnOutcome>)
  {
    forall j :: 0 <= j < |os| ==> !Started(os[j])
  }

  /** One script of three launch outcomes for each of the first `n` names. */
  predicate SpawnsFit(spawns: seq<seq<SpawnOutcome>>, n: nat)
  {
    |spawns| >= n && forall i :: 0 <= i < |spawns| ==> |spawns[i]| == SpawnAttempts
  }

  /**
   * The start command of the first configured entry with this name: IndexError
   * when no entry has the name, KeyError when the first one has no `start_cmd`.
   */
  function StartCommand(name: string, configs: seq<AppConfig>): (r: Result<string, Error>)
    ensures r == Err(IndexError) <==> forall j :: 0 <= j < |configs| ==> configs[j].name != name
  {
    var k := FirstIndex(configs, (c: AppConfig) => c.name == name);
    if k == |configs| then Err(IndexError)
    else if configs[k].startCmd.None? then Err(KeyError("start_cmd"))
    else Ok(configs[k].startCmd.value)
  }

  /** With `configs[j]` the first entry named `name`, its `start_cmd` is used, or KeyError is raised when it has none. */
  lemma StartCommandSpec(name: string, configs: seq<AppConfig>, j: nat)
    requires j < |configs| && configs[j].name == name
    requires forall i :: 0 <= i < j ==> configs[i].name != name
    ensures StartCommand(name, configs) ==
      if configs[j].startCmd.None? then Err(KeyError("start_cmd")) else Ok(configs[j].startCmd.value)
  {
  }

  /** The number of launches made: up to and including the first success, at most three. */
  function Attempts(os: seq<SpawnOutcome>): (n: nat)
    requires |os| == SpawnAttempts
  {
    var k := FirstIndex(os, Started);
    if k < SpawnAttempts then k + 1 else SpawnAttempts
  }

  /** The effects of remediating one name, and the exception that ends it, if any. */
  datatype Trace = Trace(events: seq<Event>, raised: Option<Error>)

  function RemediateOne(name: string, configs: seq<AppConfig>, os: seq<SpawnOutcome>): Trace
    requires |os| == SpawnAttempts
  {
    match StartCommand(name, configs)
    case Err(e) => Trace([WillRestartAlert(name)], Some(e))
    case Ok(cmd) =>
      Trace([WillRestartAlert(name)] + Repeat(SpawnAttempt(cmd), Attempts(os))
              + (if AllFailed(os) then [EscalationAlert(name)] else []), None)
  }

  /** Names are remediated in order until one raises. */
  function Remediate(names: seq<string>, configs: seq<AppConfig>, spawns: seq<seq<SpawnOutcome>>): Trace
    requires SpawnsFit(spawns, |names|)
  {
    if names == [] then Trace([], None)
    else
      var n := |names| - 1;
      var t := Remediate(names[..n], configs, spawns);
      if t.raised.Some? then t
      else
        var o := RemediateOne(names[n], configs, spawns[n]);
        Trace(t.events + o.events, o.raised)
  }

  /**
   * The launches stop at the first success and never exceed three: every
   * launch before the last one failed, and the last one succeeded unless all
   * three failed.
   */
  lemma AttemptsSpec(os: seq<SpawnOutcome>)
    requires |os| == SpawnAttempts
    ensures 1 <= Attempts(os) <= SpawnAttempts
    ensures forall j :: 0 <= j < Attempts(os) - 1 ==> !Started(os[j])
    ensures !AllFailed(os) ==> Started(os[Attempts(os) - 1])
    ensures AllFailed(os) <==> FirstIndex(os, Started) == SpawnAttempts
  {
    var k := FirstIndex(os, Started);
    if !AllFailed(os) {
      var j :| 0 <= j < |os| && Started(os[j]);
      assert k <= j;
    }
  }

  /**
   * For one name whose start command is known: the "will restart" alert comes
   * first, then one launch attempt per attempt made, then the escalation
   * alert exactly when all three launches failed.
   */
  lemma RemediateOneSpec(name: string, configs: seq<AppConfig>, os: seq<SpawnOutcome>)
    requires |os| == SpawnAttempts && StartCommand(name, configs).Ok?
    ensures var evs := RemediateOne(name, configs, os).events;
      && RemediateOne(name, configs, os).raised == None
      && evs[0] == WillRestartAlert(name)
      && CountIf(evs, IsSpawnAttempt) == Attempts(os)
      && CountIf(evs, IsWillRestart) == 1
      && CountIf(evs, IsEscalation) == (if AllFailed(os) then 1 else 0)
      && (AllFailed(os) ==> evs[|evs| - 1] == EscalationAlert(name))
  {
    var cmd := StartCommand(name, configs).value;
    var head := WillRestartAlert(name);
    var spawns := Repeat(SpawnAttempt(cmd), Attempts(os));
    var tail: seq<Event> := if AllFailed(os) then [EscalationAlert(name)] else [];
    assert RemediateOne(name, configs, os).events == [head] + spawns + tail;
    SpawnCount(spawns, cmd);
    ContentsDiffer();
    CountParts(head, spawns, tail, IsSpawnAttempt);
    CountParts(head, spawns, tail, IsWillRestart);
    CountParts(head, spawns, tail, IsEscalation);
  }

  /** Counting over an alert, a run of launches and a tail, part by part. */
  lemma CountParts(head: Event, spawns: seq<Event>, tail: seq<Event>, p: Event -> bool)
    ensures CountIf([head] + spawns + tail, p) == (if p(head) then 1 else 0) + CountIf(spawns, p) + CountIf(tail, p)
  {
    CountIfAppend([head], spawns, p);
    CountIfAppend([head] + spawns, tail, p);
    assert [head][..0] == [];
  }

  /** A run of launch attempts holds no alert. */
  lemma {:induction false} SpawnCount(spawns: seq<Event>, cmd: string)
    requires forall j :: 0 <= j < |spawns| ==> spawns[j] == SpawnAttempt(cmd)
    ensures CountIf(spawns, IsSpawnAttempt) == |spawns|
    ensures CountIf(spawns, IsWillRestart) == 0 && CountIf(spawns, IsEscalation) == 0
  {
    if spawns != [] {
      SpawnCount(spawns[..|spawns| - 1], cmd);
    }
  }

  lemma ContentsDiffer()
    ensures WillRestartContent != EscalationContent
  {
    assert |WillRestartContent| != |EscalationContent|;
  }

  /** Once a name raises, the names after it are not remediated. */
  lemma {:induction false} RemediateStops(names: seq<string>, configs: seq<AppConfig>, spawns: seq<seq<SpawnOutcome>>, i: nat)
    requires SpawnsFit(spawns, |names|) && i <= |names|
    requires Remediate(names[..i], configs, spawns).raised.Some?
    ensures Remediate(names, configs, spawns) == Remediate(names[..i], configs, spawns)
    decreases |names|
  {
    if i < |names| {
      var prefix := names[..|names| - 1];
      assert prefix[..i] == names[..i];
      assert SpawnsFit(spawns, |prefix|);
      RemediateStops(prefix, configs, spawns, i);
      assert Remediate(prefix, configs, spawns).raised.Some?;
    } else {
      assert names[..i] == names;
    }
  }

  /**
   * When every name has a start command, no exception is raised, there are
   * as many "will restart" alerts as names, and as many escalation alerts as
   * names whose three launches all failed.
   */
  lemma {:induction false} RemediateIsolation(names: seq<string>, configs: seq<AppConfig>, spawns: seq<seq<SpawnOutcome>>)
    requires SpawnsFit(spawns, |names|)
    requires forall i :: 0 <= i < |names| ==> StartCommand(names[i], configs).Ok?
    ensures Remediate(names, configs, spawns).raised == None
    ensures CountIf(Remediate(names, configs, spawns).events, IsWillRestart) == |names|
    ensures CountIf(Remediate(names, configs, spawns).events, IsEscalation) == CountIf(spawns[..|names|], AllFailed)
  {
    if names != [] {
      RemediateIsolation(names[..|names| - 1], configs, spawns);
      IsolationStep(names, configs, spawns);
    }
  }

  /** The step of `RemediateIsolation`: one more name with a start command keeps its three facts. */
  lemma IsolationStep(names: seq<string>, configs: seq<AppConfig>, spawns: seq<seq<SpawnOutcome>>)
    requires SpawnsFit(spawns, |names|) && names != []
    requires StartCommand(names[|names| - 1], configs).Ok?
    requires var t := Remediate(names[..|names| - 1], configs, spawns);
      && t.raised == None
      && CountIf(t.events, IsWillRestart) == |names| - 1
      && CountIf(t.events, IsEscalation) == CountIf(spawns[..|names| - 1], AllFailed)
    ensures Remediate(names, configs, spawns).raised == None
    ensures CountIf(Remediate(names, configs, spawns).events, IsWillRestart) == |names|
    ensures CountIf(Remediate(names, configs, spawns).events, IsEscalation) == CountIf(spawns[..|names|], AllFailed)
  {
    var n := |names| - 1;
    var done := spawns[..|names|];
    assert done[..n] == spawns[..n] && done[n] == spawns[n];
    assert CountIf(done, AllFailed) == CountIf(spawns[..n], AllFailed) + (if AllFailed(spawns[n]) then 1 else 0);
    var t := Remediate(names[..n], configs, spawns);
    var o := RemediateOne(names[n], configs, spawns[n]);
    assert Remediate(names, configs, spawns) == Trace(t.events + o.events, o.raised);
    RemediateOneSpec(names[n], configs, spawns[n]);
    CountIfAppend(t.events, o.events, IsWillRestart);
    CountIfAppend(t.events, o.events, IsEscalation);
  }

  /**
   * When every name has a start command, each name gets its own "will restart"
   * alert, and each name whose three launches all failed gets its own
   * escalation alert.
   */
  lemma {:induction false} RemediateAlertsEach(names: seq<string>, configs: seq<AppConfig>, spawns: seq<seq<SpawnOutcome>>)
    requires SpawnsFit(spawns, |names|)
    requires forall i :: 0 <= i < |names| ==> StartCommand(names[i], configs).Ok?
    ensures forall i :: 0 <= i < |names| ==> WillRestartAlert(names[i]) in Remediate(names, configs, spawns).events
    ensures forall i :: 0 <= i < |names| && AllFailed(spawns[i]) ==>
      EscalationAlert(names[i]) in Remediate(names, configs, spawns).events
  {
    if names != [] {
      var n := |names| - 1;
      var prefix := names[..n];
      RemediateAlertsEach(prefix, configs, spawns);
      RemediateIsolation(prefix, configs, spawns);
      assert forall i :: 0 <= i < n ==> prefix[i] == names[i];
      AlertsStep(names, configs, spawns);
    }
  }

  /** The step of `RemediateAlertsEach`: the alerts of the earlier names are kept, and the last name adds its own. */
  lemma AlertsStep(names: seq<string>, configs: seq<AppConfig>, spawns: seq<seq<SpawnOutcome>>)
    requires SpawnsFit(spawns, |names|) && names != []
    requires StartCommand(names[|names| - 1], configs).Ok?
    requires var t := Remediate(names[..|names| - 1], configs, spawns);
      && t.raised == None
      && (forall i :: 0 <= i < |names| - 1 ==> WillRestartAlert(names[i]) in t.events)
      && (forall i :: 0 <= i < |names| - 1 && AllFailed(spawns[i]) ==> EscalationAlert(names[i]) in t.events)
    ensures forall i :: 0 <= i < |names| ==> WillRestartAlert(names[i]) in Remediate(names, configs, spawns).events
    ensures forall i :: 0 <= i < |names| && AllFailed(spawns[i]) ==>
      EscalationAlert(names[i]) in Remediate(names, configs, spawns).events
  {
    var n := |names| - 1;
    var prefix := names[..n];
    var t := Remediate(prefix, configs, spawns);
    var o := RemediateOne(names[n], configs, spawns[n]);
    var evs := Remediate(names, configs, spawns).events;
    assert evs == t.events + o.events;
    RemediateOneAlerts(names[n], configs, spawns[n]);
    KeepAlerts(names, spawns, t.events, o.events);
  }

  /** Alerts found in the effects of the earlier names and of the last name are all found in their concatenation. */
  lemma KeepAlerts(names: seq<string>, spawns: seq<seq<SpawnOutcome>>, before: seq<Event>, last: seq<Event>)
    requires |spawns| >= |names| > 0
    requires forall i :: 0 <= i < |names| - 1 ==> WillRestartAlert(names[i]) in before
    requires forall i :: 0 <= i < |names| - 1 && AllFailed(spawns[i]) ==> EscalationAlert(names[i]) in before
    requires WillRestartAlert(names[|names| - 1]) in last
    requires AllFailed(spawns[|names| - 1]) ==> EscalationAlert(names[|names| - 1]) in last
    ensures forall i :: 0 <= i < |names| ==> WillRestartAlert(names[i]) in before + last
    ensures forall i :: 0 <= i < |names| && AllFailed(spawns[i]) ==> EscalationAlert(names[i]) in before + last
  {
  }

  /** One name with a start command gets its "will restart" alert, and its escalation alert when all launches failed. */
  lemma RemediateOneAlerts(name: string, configs: seq<AppConfig>, os: seq<SpawnOutcome>)
    requires |os| == SpawnAttempts && StartCommand(name, configs).Ok?
    ensures WillRestartAlert(name) in RemediateOne(name, configs, os).events
    ensures AllFailed(os) ==> EscalationAlert(name) in RemediateOne(name, configs, os).events
  {
    var evs := RemediateOne(name, configs, os).events;
    assert evs[0] == WillRestartAlert(name);
    if AllFailed(os) {
      assert evs[|evs| - 1] == EscalationAlert(name);
    }
  }

  /** Every effect of remediation is a "will restart" alert, a launch attempt or an escalation alert. */
  lemma {:induction false} RemediateEventKinds(names: seq<string>, configs: seq<AppConfig>, spawns: seq<seq<SpawnOutcome>>)
    requires SpawnsFit(spawns, |names|)
    ensures forall e :: e in Remediate(names, configs, spawns).events ==>
      IsWillRestart(e) || IsSpawnAttempt(e) || IsEscalation(e)
  {
    if names != [] {
      RemediateEventKinds(names[..|names| - 1], configs, spawns);
    }
  }

  /** When every name is configured, the start-command lookup never raises IndexError. */
  lemma {:induction false} RemediateConfiguredNames(names: seq<string>, configs: seq<AppConfig>, spawns: seq<seq<SpawnOutcome>>)
    requires SpawnsFit(spawns, |names|)
    requires forall n :: n in names ==> n in ConfiguredNames(configs)
    ensures Remediate(names, configs, spawns).raised != Some(IndexError)
  {
    if names != [] {
      var last := names[|names| - 1];
      var prefix := names[..|names| - 1];
      forall n | n in prefix
        ensures n in names
      {
        var i :| 0 <= i < |prefix| && prefix[i] == n;
        assert names[i] == n;
      }
      RemediateConfiguredNames(prefix, configs, spawns);
      assert last in names;
      var j :| 0 <= j < |configs| && configs[j].name == last;
      assert StartCommand(last, configs) != Err(IndexError);
    }
  }

  /** Remediating one more name extends the trace, unless an earlier name already raised. */
  lemma RemediateSnoc(names: seq<string>, configs: seq<AppConfig>, spawns: seq<seq<SpawnOutcome>>, i: nat)
    requires SpawnsFit(spawns, |names|) && i < |names|
    requires Remediate(names[..i], configs, spawns).raised.None?
    ensures var t := Remediate(names[..i], configs, spawns);
      var o := RemediateOne(names[i], configs, spawns[i]);
      Remediate(names[..i + 1], configs, spawns) == Trace(t.events + o.events, o.raised)
  {
    assert names[..i + 1][..i] == names[..i];
  }

  /**
   * The launch loop for one start command: at most three launches, stopping
   * at the first one that starts and reports no error. `retry` ends as the
   * index of that launch, or three when all failed.
   */
  method LaunchWithRetry(cmd: string, os: seq<SpawnOutcome>) returns (launches: seq<Event>, retry: nat)
    requires |os| == SpawnAttempts
    ensures retry == FirstIndex(os, Started)
    ensures launches == Repeat(SpawnAttempt(cmd), Attempts(os))
  {
    launches := [];
    retry := 0;
    while retry < SpawnAttempts
      invariant 0 <= retry <= SpawnAttempts
      invariant forall j :: 0 <= j < retry ==> !Started(os[j])
      invariant launches == Repeat(SpawnAttempt(cmd), retry)
    {
      launches := launches + [SpawnAttempt(cmd)];
      match os[retry] {
        case LaunchError =>
          retry := retry + 1;
        case Finished(errPresent) =>
          if errPresent {
            retry := retry + 1;
          } else {
            return;
          }
      }
    }
  }

  /**
   * Sends the "will restart" alert for each name, looks up its start command
   * and tries to launch it up to three times, escalating after three failures.
   */
  method AlertNotRunningApps(names: seq<string>, configs: seq<AppConfig>, spawns: seq<seq<SpawnOutcome>>) returns (t: Trace)
    requires SpawnsFit(spawns, |names|)
    ensures t == Remediate(names, configs, spawns)
  {
    var events: seq<Event> := [];
    var i := 0;
    while i < |names|
      invariant 0 <= i <= |names|
      invariant Remediate(names[..i], configs, spawns) == Trace(events, None)
    {
      RemediateSnoc(names, configs, spawns, i);
      var name := names[i];
      ghost var before := events;
      events := events + [WillRestartAlert(name)];
      var found := StartCommand(name, configs);
      if found.Err? {
        RemediateStops(names, configs, spawns, i + 1);
        return Trace(events, Some(found.error));
      }
      var launches, retry := LaunchWithRetry(found.value, spawns[i]);
      events := events + launches;
      AttemptsSpec(spawns[i]);
      assert retry >= SpawnAttempts <==> AllFailed(spawns[i]);
      if retry >= SpawnAttempts {
        events := events + [EscalationAlert(name)];
      }
      assert events == before + RemediateOne(name, configs, spawns[i]).events;
      i := i + 1;
    }
    assert names[..|names|] == names;
    t := Trace(events, None);
  }
}

=== FILE: scenarios.dfy ===
/**
 * Concrete runs of the model: the locator, the per-entry comparison, the
 * removal of inactive entries, and whole cycles that restart an application,
 * escalate a failed restart, or give up on an unreachable ResourceManager.
 */
module Scenarios {
  import opened Wrappers
  import opened Seqs
  import opened Model
  import opened Config
  import opened Locator
  import opened Remediation
  import opened Reconcile

  /** The third host is picked when the first is unreachable and the second is a standby. */
  lemma LocateThirdHost()
    ensures LocateIndex([Timeout, Responded("standby"), Responded("ACTIVE"), Non200]) == Ok(2)
  {
    var probes := [Timeout, Responded("standby"), Responded("ACTIVE"), Non200];
    assert Lower("standby") != "active" by {
      assert Lower("standby")[0] == 's';
    }
    assert Lower("ACTIVE") == "active";
    assert !ReportsActive(probes[0]) && !ReportsActive(probes[1]) && ReportsActive(probes[2]);
  }

  /** A host answering with a dotted capital I, "ACT\U{0130}VE", counts as active, as Python 2 lowers it to "active". */
  lemma LocateDottedCapitalI()
    ensures LocateIndex([Responded("ACT\U{0130}VE")]) == Ok(0)
  {
    assert Lower("ACT\U{0130}VE") == "active";
  }

  /** Two unreachable hosts give NoAvailableYarnRM; a standby among them gives NoActiveYarnRM. */
  lemma LocateFailures()
    ensures LocateIndex([Timeout, Non200]) == Err(NoAvailableYarnRM)
    ensures LocateIndex([Timeout, Responded("standby")]) == Err(NoActiveYarnRM)
    ensures LocateIndex([]) == Err(NoAvailableYarnRM)
  {
    assert Lower("standby") != "active" by {
      assert Lower("standby")[0] == 's';
    }
    var probes := [Timeout, Responded("standby")];
    assert !ReportsActive(probes[0]) && !ReportsActive(probes[1]);
    assert !Unreachable(probes[1]);
  }

  const Etl := AppConfig("etl", Some(1), Some("run-etl"), None, None, None)

  function Instances(n: nat): (r: seq<RunningApp>)
    ensures |r| == n
  {
    Repeat(RunningApp("etl", "application", "RUNNING"), n)
  }

  /** Expecting two instances with one running puts the name on the restart list and alerts nothing. */
  lemma UnderProvisionedEntry()
    ensures var a := Etl.(appNum := Some(2));
      Diff([a], Group(Instances(1)), "rm1:8088", "my_guardian") == DiffResult([], ["etl"])
  {
    var a := Etl.(appNum := Some(2));
    var groups := Group(Instances(1));
    LookupGroup(Instances(1), "etl");
    assert WithName(Instances(1), "etl") == Instances(1) by {
      assert Instances(1) == [Instances(1)[0]];
    }
    assert [a][..0] == [];
  }

  /** Expecting one instance with three running sends one "expected/actual" alert and restarts nothing. */
  lemma OverProvisionedEntry()
    ensures Diff([Etl], Group(Instances(3)), "rm1:8088", "my_guardian")
      == DiffResult([OverAlert("etl", 1, 3)], [])
    ensures OverAlert("etl", 1, 3).content == UnexpectedPrefix + "1/3"
  {
    var groups := Group(Instances(3));
    LookupGroup(Instances(3), "etl");
    assert WithName(Instances(3), "etl") == Instances(3);
    assert [Etl][..0] == [];
  }

  /** Of an inactive "a" and a plain "b", only "b" remains. */
  lemma InactiveEntryDropped()
    ensures var a := AppConfig("a", None, None, Some(JBool(false)), None, None);
      var b := AppConfig("b", None, None, None, None, None);
      ActiveApps([a, b]) == [b]
  {
    var a := AppConfig("a", None, None, Some(JBool(false)), None, None);
    var b := AppConfig("b", None, None, None, None, None);
    assert [a, b][..1] == [a];
    assert [a] [..0] == [];
  }

  /** Restarting "etl" alone: the alert, then its launches, then the escalation when all three fail. */
  lemma RemediateSingle(spawns: seq<seq<SpawnOutcome>>)
    requires SpawnsFit(spawns, 1)
    ensures Remediate(["etl"], [Etl], spawns) ==
      Trace([WillRestartAlert("etl")] + Repeat(SpawnAttempt("run-etl"), Attempts(spawns[0]))
            + (if AllFailed(spawns[0]) then [EscalationAlert("etl")] else []), None)
  {
    assert ["etl"][..0] == [];
    assert FirstIndex([Etl], (c: AppConfig) => c.name == "etl") == 0;
    assert StartCommand("etl", [Etl]) == Ok("run-etl");
  }

  /** Every attempt of the cycle reaches the same single, active host, whose cluster-apps reply is `stats`. */
  function SingleHostScripts(stats: Stats): (s: seq<RequestScript>)
    ensures ScriptsFit(["rm1:8088"], s)
  {
    Repeat(RequestScript([Responded("active")], FetchOk(stats)), RequestAttempts)
  }

  /** The first attempt settles with the payload's applications. */
  lemma SingleHostFetched(stats: Stats)
    requires !stats.EmptyStats?
    ensures FirstIndex(SingleHostScripts(stats), Settles) == 0
    ensures RequestOutcome(SingleHostScripts(stats)[0]) == Ok((0, if stats.AppsNull? then None else Some(stats.apps)))
  {
    var scripts := SingleHostScripts(stats);
    assert Lower("active") == "active";
    assert ReportsActive(scripts[0].probes[0]);
    assert LocateIndex(scripts[0].probes) == Ok(0);
  }

  /** With nothing running, "etl" is queued for restart and nothing else happens. */
  lemma EtlQueued()
    ensures Diff([Etl], Group(RunningOf(None)), "rm1:8088", "my_guardian") == DiffResult([], ["etl"])
  {
    LookupGroup([], "etl");
    assert DiffStep(Etl, Group([]), "rm1:8088", "my_guardian") == DiffResult([], ["etl"]);
    DiffSnoc([Etl], 0, Group([]), "rm1:8088", "my_guardian");
    assert [Etl][..0] == [] && [Etl][..1] == [Etl];
  }

  /** "etl" is not running; its first launch succeeds: one alert, one launch, nothing raised. */
  lemma RestartSucceeds()
    ensures Cycle(["rm1:8088"], "my_guardian", [Etl], SingleHostScripts(AppsNull), [[Finished(false), LaunchError, LaunchError]])
      == CycleResult(1, [WillRestartAlert("etl"), SpawnAttempt("run-etl")], None)
  {
    var os := [Finished(false), LaunchError, LaunchError];
    assert Started(os[0]) && !AllFailed(os);
    assert Attempts(os) == 1;
    assert Repeat(SpawnAttempt("run-etl"), 1) == [SpawnAttempt("run-etl")];
    RemediateSingle([os]);
    SingleHostFetched(AppsNull);
    EtlQueued();
    CycleAfterFetch(["rm1:8088"], "my_guardian", [Etl], SingleHostScripts(AppsNull), [os], 0);
  }

  /** "etl" is not running and every launch reports errors: three launches, then one escalation. */
  lemma RestartEscalates()
    ensures Cycle(["rm1:8088"], "my_guardian", [Etl], SingleHostScripts(AppsNull), [Repeat(Finished(true), SpawnAttempts)])
      == CycleResult(1, [WillRestartAlert("etl")] + Repeat(SpawnAttempt("run-etl"), 3) + [EscalationAlert("etl")], None)
  {
    var os := Repeat(Finished(true), SpawnAttempts);
    assert AllFailed(os);
    AttemptsSpec(os);
    RemediateSingle([os]);
    SingleHostFetched(AppsNull);
    EtlQueued();
    CycleAfterFetch(["rm1:8088"], "my_guardian", [Etl], SingleHostScripts(AppsNull), [os], 0);
  }

  /** Grouping `n` reported "etl" instances gives "etl" all of them. */
  lemma EtlGrouped(n: nat)
    ensures Lookup(Group(Instances(n)), "etl") == Instances(n)
  {
    LookupGroup(Instances(n), "etl");
    WithNameMembers(Instances(n), "etl");
    EtlWithName(n);
  }

  lemma {:induction false} EtlWithName(n: nat)
    ensures WithName(Instances(n), "etl") == Instances(n)
  {
    if n > 0 {
      EtlWithName(n - 1);
      assert Instances(n)[..n - 1] == Instances(n - 1);
    }
  }

  /** "etl" without `app_num`, running twice: the code as written raises on it, the corrected comparison alerts "1/2". */
  lemma EtlTwiceCompared(groups: map<string, seq<RunningApp>>)
    requires |Lookup(groups, "etl")| == 2
    ensures var etl := Etl.(appNum := None);
      && RaisesAsWritten(etl, groups)
      && Diff([etl], groups, "rm1:8088", "my_guardian") == DiffResult([OverAlert("etl", 1, 2)], [])
  {
    var etl := Etl.(appNum := None);
    assert DiffStep(etl, groups, "rm1:8088", "my_guardian") == DiffResult([OverAlert("etl", 1, 2)], []);
    assert [etl][..0] == [];
  }

  /**
   * "etl" without `app_num` runs twice. The cycle as written raises KeyError
   * before any effect; the corrected cycle sends the alert "1/2".
   */
  lemma AppNumKeyErrorCycle()
    ensures var etl := Etl.(appNum := None);
      var scripts := SingleHostScripts(AppsList(Instances(2)));
      var spawns := [Repeat(LaunchError, SpawnAttempts)];
      && CycleAsWritten(["rm1:8088"], "my_guardian", [etl], scripts, spawns) == CycleResult(1, [], Some(KeyError("app_num")))
      && Cycle(["rm1:8088"], "my_guardian", [etl], scripts, spawns) == CycleResult(1, [OverAlert("etl", 1, 2)], None)
  {
    var etl := Etl.(appNum := None);
    var scripts := SingleHostScripts(AppsList(Instances(2)));
    var spawns := [Repeat(LaunchError, SpawnAttempts)];
    SingleHostFetched(AppsList(Instances(2)));
    EtlGrouped(2);
    EtlTwiceCompared(Group(Instances(2)));
    assert [etl][..0] == [];
    CycleAsWrittenSpec(["rm1:8088"], "my_guardian", [etl], scripts, spawns, 0);
    CycleAfterFetch(["rm1:8088"], "my_guardian", [etl], scripts, spawns, 0);
  }

  /** Three attempts that all find no reachable host: one ResourceManager alert and nothing else. */
  lemma UnreachableCycle()
    ensures var scripts := Repeat(RequestScript([Timeout, Non200], FetchNon200), RequestAttempts);
      Cycle(["rm1:8088", "rm2:8088"], "my_guardian", [Etl], scripts, [Repeat(LaunchError, SpawnAttempts)])
        == CycleResult(3, [RmFailureAlert()], None)
  {
    var scripts := Repeat(RequestScript([Timeout, Non200], FetchNon200), RequestAttempts);
    LocateFailures();
    assert forall j :: 0 <= j < RequestAttempts ==> !Settles(scripts[j]);
    CycleRmFailure(["rm1:8088", "rm2:8088"], "my_guardian", [Etl], scripts, [Repeat(LaunchError, SpawnAttempts)]);
  }
}

=== FILE: seqs.dfy ===
/** Generic facts about sequences used by several components. */
module Seqs {

  /** The index of the first element satisfying `p`, or `|s|` when none does. */
  function FirstIndex<T>(s: seq<T>, p: T -> bool): (k: nat)
    ensures k <= |s|
    ensures forall j :: 0 <= j < k ==> !p(s[j])
    ensures k < |s| ==> p(s[k])
  {
    if s == [] then 0
    else if p(s[0]) then 0
    else 1 + FirstIndex(s[1..], p)
  }

  /** Whatever follows the first match does not move it. */
  lemma {:induction false} FirstIndexAppend<T>(s: seq<T>, t: seq<T>, p: T -> bool)
    requires FirstIndex(s, p) < |s|
    ensures FirstIndex(s + t, p) == FirstIndex(s, p)
  {
    var k := FirstIndex(s, p);
    assert p((s + t)[k]);
    assert forall j :: 0 <= j < k ==> (s + t)[j] == s[j];
  }

  /** The number of elements satisfying `p`. */
  function CountIf<T>(s: seq<T>, p: T -> bool): (n: nat)
    ensures n <= |s|
  {
    if s == [] then 0
    else CountIf(s[..|s| - 1], p) + (if p(s[|s| - 1]) then 1 else 0)
  }

  lemma {:induction false} CountIfAppend<T>(a: seq<T>, b: seq<T>, p: T -> bool)
    ensures CountIf(a + b, p) == CountIf(a, p) + CountIf(b, p)
    decreases |b|
  {
    if b == [] {
      assert a + b == a;
    } else {
      var b' := b[..|b| - 1];
      assert (a + b)[..|a + b| - 1] == a + b';
      CountIfAppend(a, b', p);
    }
  }

  /** Every element satisfies `p` exactly when the count is the length. */
  lemma {:induction false} CountIfAll<T>(s: seq<T>, p: T -> bool)
    ensures CountIf(s, p) == |s| <==> forall j :: 0 <= j < |s| ==> p(s[j])
  {
    if s != [] {
      var s' := s[..|s| - 1];
      CountIfAll(s', p);
      assert forall j :: 0 <= j < |s'| ==> s'[j] == s[j];
    }
  }

  /** `n` copies of `x`. */
  function Repeat<T>(x: T, n: nat): (r: seq<T>)
    ensures |r| == n && forall j :: 0 <= j < n ==> r[j] == x
  {
    seq(n, _ => x)
  }

  function DigitChar(d: nat): char
    requires d < 10
  {
    "0123456789"[d]
  }

  /** Decimal text of a natural number, as Python's str() writes it. */
  function NatToDecimal(n: nat): (r: string)
    ensures |r| >= 1
    decreases n
  {
    if n < 10 then [DigitChar(n)] else NatToDecimal(n / 10) + [DigitChar(n % 10)]
  }

  /** Decimal text of an integer, with a leading minus sign when negative. */
  function IntToDecimal(i: int): string
  {
    if i < 0 then "-" + NatToDecimal(-i) else NatToDecimal(i)
  }
}

=== FILE: wrappers.dfy ===
/** Optional values and results with an error side, as used throughout the model. */
module Wrappers {

  datatype Option<+T> = None | Some(value: T)

  datatype Result<+R, +E> = Ok(value: R) | Err(error: E)
}
